=== FILE: README.md ===
# Prompt templates and prompt evaluation, modelled in Dafny

This project models two small in-memory components of a prompt-engineering
example kit and proves their laws.

**Template store** (`prompt_templates.py`).
- A `PromptTemplate` is a body with `{name}` placeholders plus a metadata mapping. When no metadata (or an empty mapping) is supplied, a default record is used.
- `format(**params)` substitutes the placeholders. A placeholder without a value raises "Missing required parameter". A keyword argument named `self` raises `TypeError`: it clashes with the method's own first parameter.
- A `PromptLibrary` is a tree of nested dictionaries. Each segment of a dot-separated path leads to a sub-category or to a template leaf.
- `add_template` walks the path, creating missing categories, and then binds the last segment.
- `get_template` walks the path and fails on an absent segment, on a template met half-way, or on a path that ends at a category.
- The library can be filled by scanning a directory: a file's place in the tree gives its path.

**Evaluation helpers** (`prompt_evaluation.py`).
- Approximate token counts (whitespace-separated words) and a response-to-prompt ratio.
- A case-insensitive check of required and forbidden substrings, with a compliance score.
- A harness that applies an injected evaluation function to a base prompt and to each numbered variation.

Files:
- `wrappers.dfy`: `Option` and `Result`.
- `text.dfy`: `str.split()`, `str.split('.')` and `'.'.join`, ASCII `lower()`, substring search, and `str(n)` for naturals.
- `templates.dfy`: `Template`, `NewTemplate` and `Format`, plus a reference reading of a body as literal pieces and named fields. It also holds CPython's reading of a field name as a positional index (Unicode decimal digits, overflow past a 64-bit `Py_ssize_t`).
- `library.dfy`: the namespace tree (`Node`), the specification functions `Walk`, `Get`, `Put` and `LoadAll`, and the class `PromptLibrary`. The class's methods run the source's cursor loops and are proved equal to those functions.
- `evaluation.dfy`: token efficiency, output compliance and the variation comparison.

Where the code and its documentation disagree, the model follows the code:
- A lookup or insertion whose path runs through a template raises `TypeError` in the code (a template cannot be indexed). The docstring of `get_template` only mentions `KeyError`. The model reports it as `NotACategory`.
- When a forbidden element is found, the penalty's `else 0` branch can never be taken: a found forbidden element implies a non-empty forbidden list. `PenaltyDenominatorPositive` proves this, so there is no discontinuity in the score.

## Model

| member | source | states |
|---|---|---|
| Templates.DefaultMetadata | modules/code-examples/prompt-engineering/prompt_templates.py:29-34 | the record used when no metadata is given: version "1.0.0", the creation timestamp, author "AI Team", description "Generic prompt template"; characterised by NewTemplate, whose ensures state these four keys and values |
| Templates.NewTemplate | modules/code-examples/prompt-engineering/prompt_templates.py:28-34 | the body is kept verbatim; a supplied non-empty metadata mapping is kept verbatim; `None` or `{}` give exactly the keys version, created_at, author, description with "1.0.0", the given timestamp, "AI Team", "Generic prompt template" |
| Templates.Format | modules/code-examples/prompt-engineering/prompt_templates.py:47 | `str.format` applied to the body with the keyword arguments, scanned left to right, the first error ending the scan (a `KeyError` reported as the method's missing-parameter `ValueError`); characterised by StrFormatSource, MissingIsReferenced, StrFormatUnusedIgnored, StrFormatEscaped, StrFormatNoBraces and StrFormatDecimalField |
| Templates.FormatTemplate | modules/code-examples/prompt-engineering/prompt_templates.py:36-49 | `PromptTemplate.format(**params)`: a keyword argument `self` clashes with the method's own first parameter and raises `TypeError`; otherwise the outcome of `str.format` on the body; characterised by SelfArgumentIff, FormatSource, UnusedParametersIgnored, EscapeRoundTrip, NoBracesVerbatim and FormatDecimalField |
| Templates.SelfArgumentIff | modules/code-examples/prompt-engineering/prompt_templates.py:36-47 | the method raises the `TypeError` exactly when `self` is among the keyword arguments, whatever the body; `str.format` itself never raises it |
| Templates.DigitValue | modules/code-examples/prompt-engineering/prompt_templates.py:47 | the value of a character as a Unicode decimal digit, looked up through RunZero's table of the 68 runs of ten Nd digits of Unicode 15.0; its ensures bound the value below 10, and AsciiDigitValue and ArabicIndicDigitField check it on ASCII digits and on U+0663 |
| Templates.FieldKindOf | modules/code-examples/prompt-engineering/prompt_templates.py:47 | how `str.format` reads a field name: the empty name is the automatic index 0, a name of decimal digits is an index or an overflow, any other name is a keyword; characterised by ScanDecimal, FormatDecimalField and FormatOneField |
| Templates.ScanIndex | modules/code-examples/prompt-engineering/prompt_templates.py:47 | CPython's reading of a field name as an index: an index that is read is at most the largest 64-bit `Py_ssize_t`; characterised by ScanDecimal and ScanOverflowPrefix |
| Templates.ScanDecimal | modules/code-examples/prompt-engineering/prompt_templates.py:47 | the decimal rendering of n is read as the index n when n fits a 64-bit `Py_ssize_t`, and as an overflow otherwise |
| Templates.ScanOverflowPrefix | modules/code-examples/prompt-engineering/prompt_templates.py:47 | once the digits read overflow, the characters after them do not change the outcome |
| Templates.FormatOneField | modules/code-examples/prompt-engineering/prompt_templates.py:36-49 | for a template whose body is a single field `{name}`: the `TypeError` when `self` is supplied, else the overflow `ValueError`, else `IndexError` for a positional name, else the missing-parameter error for an absent keyword, else that parameter's value |
| Templates.FormatDecimalField | modules/code-examples/prompt-engineering/prompt_templates.py:36-49 | `{n}` raises the `TypeError` when `self` is supplied, else `IndexError` when n fits a 64-bit `Py_ssize_t` and `ValueError` otherwise; a field beginning with an overflowing number raises that `ValueError` whatever follows the digits |
| Templates.ArabicIndicDigitField | modules/code-examples/prompt-engineering/prompt_templates.py:36-49 | a field named by a non-ASCII Unicode decimal digit (U+0663) is positional and raises `IndexError`, even when a keyword argument of that name is supplied |
| Templates.FirstMissing | modules/code-examples/prompt-engineering/prompt_templates.py:46-49 | the reported placeholder is referenced and has no value; none is reported iff every referenced placeholder has a value |
| Templates.FormatSource | modules/code-examples/prompt-engineering/prompt_templates.py:36-49 | formatting a template whose body is made of literal text and keyword fields raises the `TypeError` when `self` is supplied, and otherwise yields the text with each field replaced by its value, or fails with MissingParameter naming the first field without a value |
| Templates.MissingIsReferenced | modules/code-examples/prompt-engineering/prompt_templates.py:46-49 | whenever `format` fails with a missing parameter, that name is absent from the parameters and occurs as a `{name}` placeholder in the body |
| Templates.UnusedParametersIgnored | modules/code-examples/prompt-engineering/prompt_templates.py:36-49 | keyword arguments that agree on the body's placeholders and on whether `self` is supplied give the same outcome: other names the body never uses are ignored |
| Templates.EscapeRoundTrip | modules/code-examples/prompt-engineering/prompt_templates.py:36-49 | literal text written with doubled braces formats back to itself, for any keyword arguments without `self`; with `self` the `TypeError` is raised |
| Templates.NoBracesVerbatim | modules/code-examples/prompt-engineering/prompt_templates.py:36-49 | a body without braces formats to itself when `self` is not supplied, and raises the `TypeError` when it is |
| Library.Segments | modules/code-examples/prompt-engineering/prompt_templates.py:136 | `template_path.split('.')`, also at line 152: always at least one segment, none holding a dot; Text.JoinSplit and Text.SplitJoin show it is inverse to the dot-join |
| Library.Walk | modules/code-examples/prompt-engineering/prompt_templates.py:136-137 | the cursor descent through the nested dictionaries, failing on an absent key or on a template met half-way; characterised by WalkAppend, AbsentSegment and PutThenWalk |
| Library.Get | modules/code-examples/prompt-engineering/prompt_templates.py:135-142 | `get_template`: the walk of the dotted path, which must end at a template; characterised by AddThenGet, PrefixIsCategory, AddKeepsOthers, AbsentSegment and EmptyLibraryLookup |
| Library.Put | modules/code-examples/prompt-engineering/prompt_templates.py:152-162 | `add_template` as a function of the tree: creates missing categories along the path and binds the last segment; characterised by PutFailsIff, PutThenWalk and PutKeepsOthers |
| Library.Stem | modules/code-examples/prompt-engineering/prompt_templates.py:109 | `os.path.splitext` of a `.json` file name; characterised by StemOfJson |
| Library.FilePath | modules/code-examples/prompt-engineering/prompt_templates.py:105-114 | the path at which a scanned file is bound, or none for a file that is not `.json`; characterised by FilePathLayout and SplitReplaced |
| Library.LoadAll | modules/code-examples/prompt-engineering/prompt_templates.py:103-120 | binding the scanned files one after another, stopping at the first TypeError; the specification that LoadFromDirectory is proved equal to |
| Library.WalkAppend | modules/code-examples/prompt-engineering/prompt_templates.py:135-137 | walking a concatenated path is walking the first part and then the second part from where it ended |
| Library.PutFailsIff | modules/code-examples/prompt-engineering/prompt_templates.py:152-162 | adding fails iff some proper prefix of the path already holds a template, and the failure is the TypeError |
| Library.PutThenWalk | modules/code-examples/prompt-engineering/prompt_templates.py:152-162 | after a successful add, the path leads to the new template, every proper prefix leads to a category, and every longer path through it fails (a sub-category bound there before is replaced) |
| Library.PutKeepsOthers | modules/code-examples/prompt-engineering/prompt_templates.py:156-162 | walks of paths that part ways with the added path give the same result as before, except that an absent segment may be reported under another name |
| Library.AddThenGet | modules/code-examples/prompt-engineering/prompt_templates.py:135-162 | `get_template(p)` after a successful `add_template(p, t)` returns exactly `t` |
| Library.PrefixIsCategory | modules/code-examples/prompt-engineering/prompt_templates.py:139-140 | after an add, `get_template` of every proper dotted prefix of the path fails with the "does not lead to a template" error |
| Library.AddKeepsOthers | modules/code-examples/prompt-engineering/prompt_templates.py:156-162 | `get_template` of a dotted path that parts ways with the added path gives the same result before and after, up to the key named by a not-found error |
| Library.AbsentSegment | modules/code-examples/prompt-engineering/prompt_templates.py:135-137 | a lookup whose walk reaches a category lacking the next segment fails with KeyError naming that segment |
| Library.EmptyLibraryLookup | modules/code-examples/prompt-engineering/prompt_templates.py:135-137 | in an empty library every lookup fails with KeyError on its first segment |
| Library.StemOfJson | modules/code-examples/prompt-engineering/prompt_templates.py:109 | the template name of `name.json` is `name` when `name` is not made only of dots |
| Library.FilePathLayout | modules/code-examples/prompt-engineering/prompt_templates.py:105-117 | only `.json` files are bound; a file in the root is bound at the top level; a file under `d1/d2` (no dots in the names) is bound under categories `d1`, `d2` and its stem |
| Library.SplitReplaced | modules/code-examples/prompt-engineering/prompt_templates.py:108-114 | replacing `/` by `.` and splitting on `.` splits the directory into its components when they hold no dot |
| Library.PromptLibrary.constructor | modules/code-examples/prompt-engineering/prompt_templates.py:92 | a library built without a directory is empty |
| Library.PromptLibrary.GetTemplate | modules/code-examples/prompt-engineering/prompt_templates.py:135-142 | the cursor loop returns exactly the lookup `Get` of the current tree |
| Library.PromptLibrary.Bind | modules/code-examples/prompt-engineering/prompt_templates.py:152-162 | the cursor walk that creates missing categories leaves the tree equal to `Put` of the old tree, or unchanged with the TypeError |
| Library.PromptLibrary.AddTemplate | modules/code-examples/prompt-engineering/prompt_templates.py:144-162 | `add_template` on the dotted path: the new tree is `Put` of the old one, or the old tree is kept and the TypeError is returned |
| Library.PromptLibrary.LoadFromDirectory | modules/code-examples/prompt-engineering/prompt_templates.py:103-120 | binding the scanned files in scan order gives the tree `LoadAll` describes, and fails exactly when it does |
| Text.JoinSplit | modules/code-examples/prompt-engineering/prompt_templates.py:136 | joining the dot-separated segments of a path with dots gives the path back |
| Text.SplitJoin | modules/code-examples/prompt-engineering/prompt_templates.py:152 | splitting a dot-join of dot-free segments gives the segments back |
| Text.Words | modules/code-examples/prompt-engineering/prompt_evaluation.py:39 | the words of `split()` are non-empty and space-free, and together they hold exactly the non-space characters of the text, in order |
| Text.BlankHasNoWords | modules/code-examples/prompt-engineering/prompt_evaluation.py:39 | empty or all-whitespace text has no words |
| Text.WordsAcrossSpace | modules/code-examples/prompt-engineering/prompt_evaluation.py:39 | a whitespace character separates the words of the text before it from those after it |
| Text.WordsOfJoined | modules/code-examples/prompt-engineering/prompt_evaluation.py:39 | splitting space-joined non-empty space-free words gives them back |
| Text.ContainsIff | modules/code-examples/prompt-engineering/prompt_evaluation.py:70 | `needle in hay` holds iff the needle occurs at some position of the hay |
| Text.DecimalRoundTrip | modules/code-examples/prompt-engineering/prompt_evaluation.py:135 | reading back the decimal rendering of a natural number gives the number |
| Text.DecimalStringInjective | modules/code-examples/prompt-engineering/prompt_evaluation.py:135 | distinct numbers have distinct decimal renderings |
| Evaluation.CountTokens | modules/code-examples/prompt-engineering/prompt_evaluation.py:39-40 | `len(text.split())`; characterised by Text.Words, BlankPromptRatio, TokensAdd and JoinedWordsCount |
| Evaluation.CalculateTokenEfficiency | modules/code-examples/prompt-engineering/prompt_evaluation.py:39-46 | the counts are the word counts of prompt and response, the total is their sum, and the ratio times the prompt count is the response count when the prompt count is positive, else 0 |
| Evaluation.BlankPromptRatio | modules/code-examples/prompt-engineering/prompt_evaluation.py:39-46 | an empty or all-whitespace prompt counts 0 tokens, gives ratio 0 and a total equal to the response count |
| Evaluation.TokensAdd | modules/code-examples/prompt-engineering/prompt_evaluation.py:39-40 | token counts add up across a whitespace character |
| Evaluation.JoinedWordsCount | modules/code-examples/prompt-engineering/prompt_evaluation.py:39-40 | n non-empty space-free words joined by spaces count n tokens |
| Evaluation.TokenEfficiencyExample | modules/code-examples/prompt-engineering/prompt_evaluation.py:39-46 | "a b c" against "a b" gives 3, 2, 5 and 2/3 |
| Evaluation.Present | modules/code-examples/prompt-engineering/prompt_evaluation.py:70-74 | `element.lower() in response.lower()`; characterised by Text.ContainsIff and SelectMembership |
| Evaluation.Select | modules/code-examples/prompt-engineering/prompt_evaluation.py:70-74 | a comprehension result is no longer than its list and holds only list elements whose presence is as asked |
| Evaluation.SelectMembership | modules/code-examples/prompt-engineering/prompt_evaluation.py:70-74 | an element is selected iff it is in the list and its case-insensitive presence is as asked |
| Evaluation.SelectAppend | modules/code-examples/prompt-engineering/prompt_evaluation.py:70-74 | selection keeps input order: it distributes over concatenation |
| Evaluation.SelectPartition | modules/code-examples/prompt-engineering/prompt_evaluation.py:70-71 | the present and the absent elements together are the list (as multisets and in number) |
| Evaluation.ForbiddenList | modules/code-examples/prompt-engineering/prompt_evaluation.py:66-67 | a `None` forbidden list is read as the empty list; characterised by EvaluateOutputCompliance and NothingRequired |
| Evaluation.EvaluateOutputCompliance | modules/code-examples/prompt-engineering/prompt_evaluation.py:66-74 | found_required, missing_required and found_forbidden hold exactly the required-present, required-absent and forbidden-present elements; a `None` forbidden list counts as empty |
| Evaluation.ComplianceLists | modules/code-examples/prompt-engineering/prompt_evaluation.py:70-74 | found and missing partition the required list, each in input order, and found_forbidden is the order-preserving present sub-list of the forbidden list |
| Evaluation.FullyCompliantIff | modules/code-examples/prompt-engineering/prompt_evaluation.py:85 | full compliance holds iff every required element is present and no forbidden element is |
| Evaluation.PenaltyDenominatorPositive | modules/code-examples/prompt-engineering/prompt_evaluation.py:77-78 | a found forbidden element implies a non-empty forbidden list, so the `else 0` branch is never taken |
| Evaluation.ComplianceScore | modules/code-examples/prompt-engineering/prompt_evaluation.py:76-78 | the score formula on the list lengths; characterised by ScoreArithmetic and ScoreBounds |
| Evaluation.ScoreArithmetic | modules/code-examples/prompt-engineering/prompt_evaluation.py:76-78 | from the list lengths the score lies in [0, 1], is 1 iff all required are found and no forbidden is, and is 0 when all forbidden are found |
| Evaluation.ScoreBounds | modules/code-examples/prompt-engineering/prompt_evaluation.py:76-85 | the compliance score lies in [0, 1], equals 1 iff the response is fully compliant, and is 0 when every forbidden element is found |
| Evaluation.NothingRequired | modules/code-examples/prompt-engineering/prompt_evaluation.py:76 | with nothing required and no forbidden list, the score is 1 and the response fully compliant |
| Evaluation.ComplianceExample | modules/code-examples/prompt-engineering/prompt_evaluation.py:66-85 | "Revenue was $2.5B" against ["revenue", "profit"] finds "revenue", misses "profit", scores 0.5 and is not fully compliant |
| Evaluation.VariationKey | modules/code-examples/prompt-engineering/prompt_evaluation.py:135 | the key `variation_{i}` with i in decimal; VariationKeyInjective shows distinct indices give distinct keys, and ComparePromptVariations states the key set |
| Evaluation.VariationKeyInjective | modules/code-examples/prompt-engineering/prompt_evaluation.py:135 | distinct indices give distinct `variation_i` keys |
| Evaluation.ComparePromptVariations | modules/code-examples/prompt-engineering/prompt_evaluation.py:129-137 | base_prompt is the function applied to the base; the variations map has exactly the keys variation_1..variation_n, and variation_i is the function applied to the i-th variation; the test inputs are not used |

## Left out

- `PromptTemplate.save`, `PromptTemplate.load`, `save_library` and `_save_category` are left out: they are file-system and JSON I/O.
- The directory scan is left out: `os.walk` and `os.path.exists` in `PromptLibrary.__init__`. `LoadFromDirectory` takes the files the scan found, in scan order. Each file carries its directory relative to the root, with `/` separators, and the template read from it.
- Library.PromptLibrary.LoadFromDirectory: does not state the tree left after a TypeError. The source's constructor raises in that case, so no library object survives.
- `_simulate_expert_rating` is left out: it uses random noise and floating-point rounding.
- `simulate_response_generation` is left out: it is a canned stand-in for a call to a text-generation provider.
- The `__main__` demo blocks and the module-level example templates are left out: they are printing and sample data.
- `datetime.now()` in the default metadata is not modelled. The timestamp is the parameter `now`.
- Metadata values are strings, nested mappings and lists only. Numbers and booleans are not modelled.
- `format` covers only `{name}` fields, `{{`/`}}` escapes, positional fields and stray or unclosed braces (`ValueError`).
- A field name is positional when it is empty or every character is a Unicode decimal digit. It then raises `IndexError`, or `ValueError` when the index overflows. A name whose leading digits already overflow raises `ValueError` whatever follows them, as CPython reads digits before it looks further. The digit table is that of Unicode 15.0; other Unicode versions are not modelled.
- `Py_ssize_t` is taken to be 64 bits wide. A 32-bit build overflows at a smaller index; that case is not modelled.
- Format specifications, `!r`/`!s` conversions and attribute or index access are not modelled. A field name holding `:`, `!`, `.` or `[` is read as a plain key by `Format`, and a format specification that holds a nested field (`{a:{b}}`) is reported as `BadFormatString`, where Python substitutes it. The laws about fields (`FormatSource`, `UnusedParametersIgnored`) are stated only for names free of these characters.
- Parameter values are strings: `str(value)` of other types is not modelled.
- `str.lower()` is modelled on ASCII letters only. Unicode case mapping is not modelled.
- `str.split()` breaks on the characters for which Python's `str.isspace()` holds. No other Unicode semantics are modelled.
- The score and the ratio are exact rationals (`real`). IEEE rounding is not modelled.
- Dictionary insertion order is not modelled: it only affects the order of saving to disk.
- The nested dictionaries are values, not shared objects. `Bind` descends through the path and then writes each updated category back into its parent. Aliasing of sub-dictionaries outside the library is not captured.
- The injected evaluation function is a total, side-effect-free function. An evaluation function that raises or has side effects is not modelled.

=== FILE: evaluation.dfy ===
/** `PromptEvaluator`: token-count metrics, the required/forbidden element
    compliance check, and the harness that runs an injected evaluation
    function over a base prompt and its variations. */
module Evaluation {
  import opened Wrappers
  import Text

  // ---------------------------------------------------------------------
  // calculate_token_efficiency
  // ---------------------------------------------------------------------

  datatype TokenEfficiency = TokenEfficiency(
    promptTokens: nat,
    responseTokens: nat,
    totalTokens: nat,
    responseToPromptRatio: real)

  /** The approximate token count `len(text.split())`. */
  function CountTokens(text: string): nat
  {
    |Text.Words(text)|
  }

  /** `calculate_token_efficiency(prompt, response)`; the ratio is exact
      (rational) instead of a floating-point quotient. */
  function CalculateTokenEfficiency(prompt: string, response: string): (e: TokenEfficiency)
    ensures e.promptTokens == CountTokens(prompt) && e.responseTokens == CountTokens(response)
    ensures e.totalTokens == e.promptTokens + e.responseTokens
    ensures e.promptTokens > 0 ==> e.responseToPromptRatio * e.promptTokens as real == e.responseTokens as real
    ensures e.promptTokens == 0 ==> e.responseToPromptRatio == 0.0
    ensures e.responseToPromptRatio >= 0.0
  {
    var p := CountTokens(prompt);
    var r := CountTokens(response);
    TokenEfficiency(p, r, p + r, if p > 0 then r as real / p as real else 0.0)
  }

  /** Empty or all-space text counts no tokens, and the ratio over such a
      prompt is zero. */
  lemma BlankPromptRatio(prompt: string, response: string)
    requires forall j | 0 <= j < |prompt| :: Text.IsSpace(prompt[j])
    ensures CalculateTokenEfficiency(prompt, response).promptTokens == 0
    ensures CalculateTokenEfficiency(prompt, response).responseToPromptRatio == 0.0
    ensures CalculateTokenEfficiency(prompt, response).totalTokens == CountTokens(response)
  {
    Text.BlankHasNoWords(prompt);
  }

  /** Token counts add up across a whitespace character. */
  lemma TokensAdd(a: string, c: char, b: string)
    requires Text.IsSpace(c)
    ensures CountTokens(a + [c] + b) == CountTokens(a) + CountTokens(b)
  {
    Text.WordsAcrossSpace(a, c, b);
  }

  /** The counts are the numbers of space-separated words: `n` non-empty
      space-free words joined by spaces count `n` tokens. */
  lemma JoinedWordsCount(ws: seq<string>)
    requires forall w | w in ws :: w != [] && Text.NoSpace(w)
    ensures CountTokens(Text.JoinSpaced(ws)) == |ws|
  {
    Text.WordsOfJoined(ws);
  }

  // ---------------------------------------------------------------------
  // evaluate_output_compliance
  // ---------------------------------------------------------------------

  /** An element is present when its lower-cased form is a substring of the
      lower-cased response. */
  predicate Present(element: string, response: string)
  {
    Text.Contains(Text.Lower(response), Text.Lower(element))
  }

  /** The elements of `xs`, in order, whose presence in `response` is
      `present` (the list comprehensions of `evaluate_output_compliance`). */
  function Select(xs: seq<string>, response: string, present: bool): (r: seq<string>)
    ensures |r| <= |xs|
    ensures forall e | e in r :: e in xs && Present(e, response) == present
  {
    if xs == [] then []
    else (if Present(xs[0], response) == present then [xs[0]] else []) + Select(xs[1..], response, present)
  }

  /** Selection keeps every matching element: an element is selected iff it
      is in the list and its presence is as asked. */
  lemma {:induction false} SelectMembership(xs: seq<string>, response: string, present: bool, e: string)
    ensures e in Select(xs, response, present) <==> e in xs && Present(e, response) == present
    decreases |xs|
  {
    if xs != [] {
      SelectMembership(xs[1..], response, present, e);
      assert xs == [xs[0]] + xs[1..];
    }
  }

  /** Selection keeps the input order: it distributes over concatenation. */
  lemma {:induction false} SelectAppend(a: seq<string>, b: seq<string>, response: string, present: bool)
    ensures Select(a + b, response, present) == Select(a, response, present) + Select(b, response, present)
    decreases |a|
  {
    if a == [] {
      assert a + b == b;
    } else {
      assert (a + b)[0] == a[0];
      assert (a + b)[1..] == a[1..] + b;
      SelectAppend(a[1..], b, response, present);
    }
  }

  /** The present and the absent elements partition the list. */
  lemma {:induction false} SelectPartition(xs: seq<string>, response: string)
    ensures multiset(Select(xs, response, true)) + multiset(Select(xs, response, false)) == multiset(xs)
    ensures |Select(xs, response, true)| + |Select(xs, response, false)| == |xs|
    decreases |xs|
  {
    if xs != [] {
      var h, t := xs[0], xs[1..];
      SelectPartition(t, response);
      SelectStep(xs, response);
      assert xs == [h] + t;
      PartitionCons(h, t, Select(t, response, true), Select(t, response, false),
        Select(xs, response, true), Select(xs, response, false));
    }
  }

  /** Adding one element to one side of a partition of `t` partitions `[h] + t`. */
  lemma PartitionCons<T>(h: T, t: seq<T>, a: seq<T>, b: seq<T>, a': seq<T>, b': seq<T>)
    requires multiset(a) + multiset(b) == multiset(t) && |a| + |b| == |t|
    requires (a' == [h] + a && b' == b) || (a' == a && b' == [h] + b)
    ensures multiset(a') + multiset(b') == multiset([h] + t) && |a'| + |b'| == |[h] + t|
  {
    assert multiset([h] + t) == multiset{h} + multiset(t);
    if a' == [h] + a {
      assert multiset([h] + a) == multiset{h} + multiset(a);
    } else {
      assert multiset(b') == multiset{h} + multiset(b);
    }
  }

  /** One element of the list goes to exactly one side of the partition. */
  lemma SelectStep(xs: seq<string>, response: string)
    requires xs != []
    ensures var p := Present(xs[0], response);
      Select(xs, response, p) == [xs[0]] + Select(xs[1..], response, p) &&
      Select(xs, response, !p) == Select(xs[1..], response, !p)
  {
  }

  datatype ComplianceResult = ComplianceResult(
    complianceScore: real,
    foundRequired: seq<string>,
    missingRequired: seq<string>,
    foundForbidden: seq<string>,
    isFullyCompliant: bool)

  /** `evaluate_output_compliance(response, required, forbidden)`; a `None`
      forbidden list is read as empty. */
  function EvaluateOutputCompliance(response: string, required: seq<string>, forbidden: Option<seq<string>>): (c: ComplianceResult)
    ensures forall e :: e in c.foundRequired <==> e in required && Present(e, response)
    ensures forall e :: e in c.missingRequired <==> e in required && !Present(e, response)
    ensures forall e :: e in c.foundForbidden <==> e in ForbiddenList(forbidden) && Present(e, response)
  {
    var forbiddenElements := ForbiddenList(forbidden);
    var found := Select(required, response, true);
    var missing := Select(required, response, false);
    var foundForbidden := Select(forbiddenElements, response, true);
    var score := ComplianceScore(|found|, |required|, |foundForbidden|, |forbiddenElements|);
    forall e ensures e in found <==> e in required && Present(e, response) {
      SelectMembership(required, response, true, e);
    }
    forall e ensures e in missing <==> e in required && !Present(e, response) {
      SelectMembership(required, response, false, e);
    }
    forall e ensures e in foundForbidden <==> e in forbiddenElements && Present(e, response) {
      SelectMembership(forbiddenElements, response, true, e);
    }
    ComplianceResult(score, found, missing, foundForbidden, |missing| == 0 && |foundForbidden| == 0)
  }

  /** The score from the list lengths: the found fraction of the required
      elements (1 when none is required), multiplied, when a forbidden element
      is found, by one minus the found fraction of the forbidden elements. */
  function ComplianceScore(found: nat, required: nat, foundForbidden: nat, forbidden: nat): real
  {
    var base := if required > 0 then found as real / required as real else 1.0;
    if foundForbidden > 0 then
      base * (if forbidden > 0 then 1.0 - foundForbidden as real / forbidden as real else 0.0)
    else base
  }

  lemma ScoreArithmetic(found: nat, required: nat, foundForbidden: nat, forbidden: nat)
    requires found <= required && foundForbidden <= forbidden
    ensures var score := ComplianceScore(found, required, foundForbidden, forbidden);
      && 0.0 <= score <= 1.0
      && (score == 1.0 <==> found == required && foundForbidden == 0)
      && (foundForbidden == forbidden > 0 ==> score == 0.0)
  {
    var base := if required > 0 then found as real / required as real else 1.0;
    assert 0.0 <= base <= 1.0;
    assert base == 1.0 <==> found == required;
    if foundForbidden > 0 {
      var factor := 1.0 - foundForbidden as real / forbidden as real;
      assert 0.0 <= factor < 1.0;
      assert base * factor <= factor;
      assert 0.0 <= base * factor;
    }
  }

  function ForbiddenList(forbidden: Option<seq<string>>): seq<string>
  {
    if forbidden.Some? then forbidden.value else []
  }

  /** The found and missing lists partition `required`, each in input order,
      and the found forbidden elements are the present ones in input order.
      The three equations with `Select` tie each list to the filter; that the
      filter keeps input order is `SelectAppend`, and which elements it keeps
      is `SelectMembership`. */
  lemma ComplianceLists(response: string, required: seq<string>, forbidden: Option<seq<string>>)
    ensures var c := EvaluateOutputCompliance(response, required, forbidden);
      && multiset(c.foundRequired) + multiset(c.missingRequired) == multiset(required)
      && |c.foundRequired| + |c.missingRequired| == |required|
      && c.foundRequired == Select(required, response, true)
      && c.missingRequired == Select(required, response, false)
      && c.foundForbidden == Select(ForbiddenList(forbidden), response, true)
  {
    SelectPartition(required, response);
  }

  /** Full compliance means every required element is present and no
      forbidden element is. */
  lemma FullyCompliantIff(response: string, required: seq<string>, forbidden: Option<seq<string>>)
    ensures EvaluateOutputCompliance(response, required, forbidden).isFullyCompliant <==>
      (forall e | e in required :: Present(e, response)) &&
      (forall e | e in ForbiddenList(forbidden) :: !Present(e, response))
  {
    var c := EvaluateOutputCompliance(response, required, forbidden);
    if c.missingRequired != [] {
      assert c.missingRequired[0] in c.missingRequired;
    }
    if c.foundForbidden != [] {
      assert c.foundForbidden[0] in c.foundForbidden;
    }
  }

  /** A forbidden element can only be found in a non-empty forbidden list, so
      the `else 0` branch of the penalty is never taken. */
  lemma PenaltyDenominatorPositive(response: string, required: seq<string>, forbidden: Option<seq<string>>)
    ensures |EvaluateOutputCompliance(response, required, forbidden).foundForbidden| > 0 ==> |ForbiddenList(forbidden)| > 0
  {
  }

  /** The score lies in [0, 1] and is exactly 1 iff the response is fully
      compliant; it is 0 when every forbidden element is found. */
  lemma ScoreBounds(response: string, required: seq<string>, forbidden: Option<seq<string>>)
    ensures var c := EvaluateOutputCompliance(response, required, forbidden);
      && 0.0 <= c.complianceScore <= 1.0
      && (c.complianceScore == 1.0 <==> c.isFullyCompliant)
      && (|c.foundForbidden| == |ForbiddenList(forbidden)| > 0 ==> c.complianceScore == 0.0)
  {
    var c := EvaluateOutputCompliance(response, required, forbidden);
    SelectPartition(required, response);
    ScoreArithmetic(|c.foundRequired|, |required|, |c.foundForbidden|, |ForbiddenList(forbidden)|);
  }

  /** With nothing required and no forbidden list, every response scores 1
      and is fully compliant. */
  lemma NothingRequired(response: string)
    ensures EvaluateOutputCompliance(response, [], None).complianceScore == 1.0
    ensures EvaluateOutputCompliance(response, [], None).isFullyCompliant
  {
  }

  /** Three prompt words against two response words. */
  lemma TokenEfficiencyExample()
    ensures CalculateTokenEfficiency("a b c", "a b") == TokenEfficiency(3, 2, 5, 2.0 / 3.0)
  {
    TwoWords();
    ThreeWords();
  }

  lemma TwoWords()
    ensures CountTokens("a b") == 2
  {
    Text.WordsOfWord("a");
    Text.WordsOfWord("b");
    Text.WordsAcrossSpace("a", ' ', "b");
    assert "a" + [' '] + "b" == "a b";
  }

  lemma ThreeWords()
    ensures CountTokens("a b c") == 3
  {
    TwoWords();
    Text.WordsOfWord("c");
    Text.WordsAcrossSpace("a b", ' ', "c");
    assert "a b" + [' '] + "c" == "a b c";
  }

  /** Neither letter `p` nor `P` occurs in the response of the example. */
  lemma ProfitAbsent()
    ensures !Present("profit", "Revenue was $2.5B")
  {
    var s := "Revenue was $2.5B";
    var hay := Text.Lower(s);
    forall i | 0 <= i < |s| ensures hay[i] != 'p' {
      assert s[i] != 'p' && s[i] != 'P';
    }
    assert 'p' !in hay;
    assert Text.Lower("profit")[0] == 'p';
    if Text.Contains(hay, Text.Lower("profit")) {
      Text.ContainsFirst(hay, Text.Lower("profit"));
    }
  }

  lemma RevenuePresent()
    ensures Present("revenue", "Revenue was $2.5B")
  {
    var hay := Text.Lower("Revenue was $2.5B");
    var needle := Text.Lower("revenue");
    assert |needle| == 7;
    forall i | 0 <= i < 7 ensures hay[i] == needle[i] {
    }
    assert needle <= hay;
  }

  /** The match ignores case: "revenue" is found in "Revenue was $2.5B",
      "profit" is not, and the score is one half. */
  lemma ComplianceExample()
    ensures var c := EvaluateOutputCompliance("Revenue was $2.5B", ["revenue", "profit"], None);
      && c.foundRequired == ["revenue"]
      && c.missingRequired == ["profit"]
      && c.foundForbidden == []
      && c.complianceScore == 0.5
      && !c.isFullyCompliant
  {
    var response := "Revenue was $2.5B";
    var required := ["revenue", "profit"];
    RevenuePresent();
    ProfitAbsent();
    assert required[1..] == ["profit"];
    assert required[1..][1..] == [];
    assert Select(required, response, true) == ["revenue"];
    assert Select(required, response, false) == ["profit"];
  }

  // ---------------------------------------------------------------------
  // compare_prompt_variations
  // ---------------------------------------------------------------------

  /** The comparison record: the base prompt's evaluation and one entry per
      variation. */
  datatype Comparison<R> = Comparison(basePrompt: R, variations: map<string, R>)

  /** The key `f"variation_{i}"`. */
  function VariationKey(i: nat): string
  {
    "variation_" + Text.DecimalString(i)
  }

  /** Distinct indices give distinct keys, so no variation overwrites another. */
  lemma VariationKeyInjective(i: nat, j: nat)
    requires VariationKey(i) == VariationKey(j)
    ensures i == j
  {
    var pre := "variation_";
    assert Text.DecimalString(i) == VariationKey(i)[|pre|..];
    assert Text.DecimalString(j) == VariationKey(j)[|pre|..];
    Text.DecimalStringInjective(i, j);
  }

  /** `compare_prompt_variations`: the injected function is applied to the
      base prompt and to each variation, the i-th (from 1) stored under
      `variation_i`; the test inputs are not used. */
  method ComparePromptVariations<R>(
    basePrompt: string,
    variations: seq<string>,
    evaluate: string -> R,
    testInputs: Option<seq<map<string, string>>>)
    returns (c: Comparison<R>)
    ensures c.basePrompt == evaluate(basePrompt)
    ensures c.variations.Keys == set i | 1 <= i <= |variations| :: VariationKey(i)
    ensures forall i | 1 <= i <= |variations| :: c.variations[VariationKey(i)] == evaluate(variations[i - 1])
  {
    var results := map[];
    var i := 0;
    while i < |variations|
      invariant 0 <= i <= |variations|
      invariant results.Keys == set j | 1 <= j <= i :: VariationKey(j)
      invariant forall j | 1 <= j <= i :: results[VariationKey(j)] == evaluate(variations[j - 1])
    {
      forall j | 1 <= j <= i ensures VariationKey(j) != VariationKey(i + 1) {
        if VariationKey(j) == VariationKey(i + 1) {
          VariationKeyInjective(j, i + 1);
        }
      }
      results := results[VariationKey(i + 1) := evaluate(variations[i])];
      i := i + 1;
    }
    c := Comparison(evaluate(basePrompt), results);
  }
}

=== FILE: library.dfy ===
/** `PromptLibrary`: a namespace tree of templates addressed by dot-separated
    paths, the lookup and insertion walks over it, and the derivation of a
    template's path from its file's place in a library directory. */
module Library {
  import opened Wrappers
  import Text
  import opened Templates

  /** A node of the namespace: a category (a nested dictionary) mapping
      segment names to nodes, or a template leaf. */
  datatype Node = Category(children: map<string, Node>) | Leaf(template: Template)

  /** How lookups and insertions fail. `KeyNotFound` is the `KeyError` raised by
      `current[part]` for an absent segment; `NotATemplate` is the `KeyError`
      raised when the whole path ends at a category; `NotACategory` is the
      `TypeError` raised when a template is indexed (or searched with `in`) as
      if it were a category. */
  datatype LibraryError =
    | KeyNotFound(key: string)
    | NotATemplate(path: string)
    | NotACategory

  /** The segments of a dotted path, `template_path.split('.')`. */
  function Segments(path: string): (parts: seq<string>)
    ensures |parts| >= 1
    ensures forall p | p in parts :: '.' !in p
  {
    Text.Split(path, '.')
  }

  /** Follows `parts` from `node`, one `current = current[part]` at a time. */
  function Walk(node: Node, parts: seq<string>): Result<Node, LibraryError>
    decreases |parts|
  {
    if parts == [] then Success(node)
    else
      match node
      case Leaf(_) => Failure(NotACategory)
      case Category(m) =>
        if parts[0] in m then Walk(m[parts[0]], parts[1..]) else Failure(KeyNotFound(parts[0]))
  }

  /** `get_template(path)` on the library whose top-level dictionary is `root`. */
  function Get(root: map<string, Node>, path: string): Result<Template, LibraryError>
  {
    match Walk(Category(root), Segments(path))
    case Success(Leaf(t)) => Success(t)
    case Success(Category(_)) => Failure(NotATemplate(path))
    case Failure(e) => Failure(e)
  }

  /** `add_template` on the segments `parts`: every segment but the last is
      looked up in the current category and created as an empty category when
      absent, then the last segment is bound to the template, replacing
      whatever was bound there. A template met on the way is a `TypeError`. */
  function Put(m: map<string, Node>, parts: seq<string>, t: Template): Result<map<string, Node>, LibraryError>
    requires |parts| >= 1
    decreases |parts|
  {
    if |parts| == 1 then Success(m[parts[0] := Leaf(t)])
    else
      var child := if parts[0] in m then m[parts[0]] else Category(map[]);
      match child
      case Leaf(_) => Failure(NotACategory)
      case Category(sub) =>
        match Put(sub, parts[1..], t)
        case Success(sub') => Success(m[parts[0] := Category(sub')])
        case Failure(e) => Failure(e)
  }

  // ---------------------------------------------------------------------
  // Laws of the namespace tree
  // ---------------------------------------------------------------------

  /** Walking `a + b` is walking `a`, then `b` from where `a` ended. */
  lemma {:induction false} WalkAppend(n: Node, a: seq<string>, b: seq<string>)
    ensures Walk(n, a + b) ==
      match Walk(n, a)
      case Success(x) => Walk(x, b)
      case Failure(e) => Failure(e)
    decreases |a|
  {
    if a == [] {
      assert a + b == b;
    } else {
      assert (a + b)[0] == a[0];
      assert (a + b)[1..] == a[1..] + b;
      match n
      case Leaf(_) =>
      case Category(m) =>
        if a[0] in m {
          WalkAppend(m[a[0]], a[1..], b);
        }
    }
  }

  predicate LeafAt(m: map<string, Node>, q: seq<string>) {
    Walk(Category(m), q).Success? && Walk(Category(m), q).value.Leaf?
  }

  /** Adding fails exactly when a proper prefix of the path already holds a
      template, and then with the `TypeError`. */
  lemma {:induction false} PutFailsIff(m: map<string, Node>, p: seq<string>, t: Template)
    requires |p| >= 1
    ensures Put(m, p, t).Failure? <==> exists k :: 0 < k < |p| && LeafAt(m, p[..k])
    ensures Put(m, p, t).Failure? ==> Put(m, p, t).error == NotACategory
    decreases |p|
  {
    if |p| > 1 {
      var child := if p[0] in m then m[p[0]] else Category(map[]);
      assert p[..1] == [p[0]];
      assert p[..1][1..] == [];
      if p[0] !in m {
        assert !LeafAt(m, p[..1]);
        PutFailsIff(map[], p[1..], t);
        forall k | 0 < k < |p| ensures !LeafAt(m, p[..k]) {
          assert p[..k][0] == p[0];
        }
      } else if child.Leaf? {
        assert LeafAt(m, p[..1]);
      } else {
        var sub := child.children;
        PutFailsIff(sub, p[1..], t);
        assert p[..1][0] == p[0];
        assert Walk(Category(m), p[..1]) == Walk(child, []);
        assert !LeafAt(m, p[..1]);
        forall k | 1 < k < |p| ensures LeafAt(m, p[..k]) <==> LeafAt(sub, p[1..][..k - 1]) {
          assert p[..k][0] == p[0];
          assert p[..k][1..] == p[1..][..k - 1];
        }
        if exists k :: 0 < k < |p| && LeafAt(m, p[..k]) {
          var k :| 0 < k < |p| && LeafAt(m, p[..k]);
          assert LeafAt(sub, p[1..][..k - 1]);
        }
        if exists k :: 0 < k < |p| - 1 && LeafAt(sub, p[1..][..k]) {
          var k :| 0 < k < |p| - 1 && LeafAt(sub, p[1..][..k]);
          assert LeafAt(m, p[..k + 1]);
        }
      }
    }
  }

  /** After a successful add, the path leads to the new template, every proper
      prefix of the path leads to a category, and any longer path running
      through it fails, since a sub-category bound there before is replaced. */
  lemma {:induction false} PutThenWalk(m: map<string, Node>, p: seq<string>, t: Template, k: nat, rest: seq<string>)
    requires |p| >= 1 && Put(m, p, t).Success?
    requires k < |p|
    ensures Walk(Category(Put(m, p, t).value), p) == Success(Leaf(t))
    ensures Walk(Category(Put(m, p, t).value), p[..k]).Success?
    ensures Walk(Category(Put(m, p, t).value), p[..k]).value.Category?
    ensures rest != [] ==> Walk(Category(Put(m, p, t).value), p + rest) == Failure(NotACategory)
    decreases |p|
  {
    var m' := Put(m, p, t).value;
    assert p[..0] == [];
    if |p| > 1 {
      var child := if p[0] in m then m[p[0]] else Category(map[]);
      var sub := child.children;
      PutThenWalk(sub, p[1..], t, if k == 0 then 0 else k - 1, rest);
      if k > 0 {
        assert p[..k][0] == p[0];
        assert p[..k][1..] == p[1..][..k - 1];
      }
      assert (p + rest)[0] == p[0];
      assert (p + rest)[1..] == p[1..] + rest;
    } else {
      assert p[1..] == [];
      assert (p + rest)[1..] == rest;
    }
  }

  /** Two paths that part ways at some segment. */
  predicate Diverge(p: seq<string>, q: seq<string>) {
    exists k :: 0 <= k < |p| && k < |q| && p[k] != q[k]
  }

  /** Adding leaves the paths that part ways with the added path as they were:
      the same template, the same category, the same error, except that a
      missing segment may be reported under a different name once the missing
      categories on the added path exist. */
  lemma {:induction false} PutKeepsOthers(m: map<string, Node>, p: seq<string>, t: Template, q: seq<string>)
    requires |p| >= 1 && Put(m, p, t).Success?
    requires Diverge(p, q)
    ensures var after := Walk(Category(Put(m, p, t).value), q);
            var before := Walk(Category(m), q);
            after == before || (before.Failure? && before.error.KeyNotFound? && after.Failure? && after.error.KeyNotFound?)
    decreases |p|
  {
    var m' := Put(m, p, t).value;
    var k :| 0 <= k < |p| && k < |q| && p[k] != q[k];
    if q[0] != p[0] {
    } else {
      assert k > 0;
      var child := if p[0] in m then m[p[0]] else Category(map[]);
      var sub := child.children;
      assert p[1..][k - 1] != q[1..][k - 1];
      PutKeepsOthers(sub, p[1..], t, q[1..]);
    }
  }

  /** `add_template(path, t)` followed by `get_template(path)` yields `t`. */
  lemma AddThenGet(m: map<string, Node>, path: string, t: Template)
    requires Put(m, Segments(path), t).Success?
    ensures Get(Put(m, Segments(path), t).value, path) == Success(t)
  {
    PutThenWalk(m, Segments(path), t, 0, []);
  }

  /** Every proper prefix of an added path names a category, which
      `get_template` reports as not being a template. */
  lemma PrefixIsCategory(m: map<string, Node>, path: string, t: Template, k: nat)
    requires Put(m, Segments(path), t).Success?
    requires 0 < k < |Segments(path)|
    ensures var prefix := Text.Join(Segments(path)[..k], '.');
            Get(Put(m, Segments(path), t).value, prefix) == Failure(NotATemplate(prefix))
  {
    var p := Segments(path);
    var prefix := Text.Join(p[..k], '.');
    assert forall s | s in p[..k] :: s in p;
    Text.SplitJoin(p[..k], '.');
    PutThenWalk(m, p, t, k, []);
  }

  /** Adding leaves unchanged the lookups of dotted paths that part ways with
      the added path (up to the name reported for a missing segment). */
  lemma AddKeepsOthers(m: map<string, Node>, path: string, t: Template, other: string)
    requires Put(m, Segments(path), t).Success?
    requires Diverge(Segments(path), Segments(other))
    ensures var after := Get(Put(m, Segments(path), t).value, other);
            var before := Get(m, other);
            after == before || (before.Failure? && before.error.KeyNotFound? && after.Failure? && after.error.KeyNotFound?)
  {
    PutKeepsOthers(m, Segments(path), t, Segments(other));
  }

  /** A lookup fails with `KeyError` naming the first absent segment. */
  lemma AbsentSegment(m: map<string, Node>, path: string, k: nat, c: map<string, Node>)
    requires k < |Segments(path)|
    requires Walk(Category(m), Segments(path)[..k]) == Success(Category(c))
    requires Segments(path)[k] !in c
    ensures Get(m, path) == Failure(KeyNotFound(Segments(path)[k]))
  {
    var p := Segments(path);
    assert p == p[..k] + p[k..];
    WalkAppend(Category(m), p[..k], p[k..]);
  }

  /** In an empty library every lookup fails with `KeyError`. */
  lemma EmptyLibraryLookup(path: string)
    ensures Get(map[], path) == Failure(KeyNotFound(Segments(path)[0]))
  {
  }

  // ---------------------------------------------------------------------
  // Directory layout (the pure part of `_load_from_directory`)
  // ---------------------------------------------------------------------

  /** A `.json` file found by the directory scan: its directory relative to
      the library root (`/`-separated, empty for the root itself), its file
      name, and the template `PromptTemplate.load` read from it. */
  datatype TemplateFile = TemplateFile(dir: string, name: string, template: Template)

  /** `os.path.splitext(name)[0]` for a name ending in `.json`: the extension
      is cut off unless everything before it is dots (a leading dot marks a
      hidden file, not an extension). */
  function Stem(name: string): string
    requires Text.EndsWith(name, ".json")
  {
    var base := name[..|name| - 5];
    if forall j | 0 <= j < |base| :: base[j] == '.' then name else base
  }

  /** The segments under which a scanned file is bound, or `None` when the
      scan skips it: the directory's `/` become `.`, that string is split on
      `.`, and the stem of the file name is the last segment. */
  function FilePath(dir: string, name: string): Option<seq<string>>
  {
    if !Text.EndsWith(name, ".json") then None
    else
      var categoryPath := Text.Replace(dir, '/', '.');
      var categories := if categoryPath != "" && categoryPath != "." then Text.Split(categoryPath, '.') else [];
      Some(categories + [Stem(name)])
  }

  lemma StemOfJson(base: string)
    requires exists j :: 0 <= j < |base| && base[j] != '.'
    ensures Text.EndsWith(base + ".json", ".json")
    ensures Stem(base + ".json") == base
  {
    assert (base + ".json")[..|base|] == base;
  }

  /** Only `.json` files are bound; one in the root is bound at the top level;
      one in `d1/d2/...` (directory names without dots) is bound under the
      categories `d1`, `d2`, ... */
  lemma FilePathLayout(dir: string, name: string)
    ensures FilePath(dir, name).None? <==> !Text.EndsWith(name, ".json")
    ensures Text.EndsWith(name, ".json") && dir == "" ==> FilePath(dir, name) == Some([Stem(name)])
    ensures Text.EndsWith(name, ".json") && dir != "" && dir != "/" && '.' !in dir ==>
      FilePath(dir, name) == Some(Text.Split(dir, '/') + [Stem(name)])
  {
    if Text.EndsWith(name, ".json") && dir == "" {
      assert |Text.Replace(dir, '/', '.')| == 0;
      assert [] + [Stem(name)] == [Stem(name)];
    }
    if Text.EndsWith(name, ".json") && dir != "" && dir != "/" && '.' !in dir {
      var cp := Text.Replace(dir, '/', '.');
      assert cp != "" && cp != "." by {
        assert |cp| == |dir|;
        if |dir| == 1 {
          assert dir == [dir[0]];
          assert dir[0] in dir;
          assert dir[0] != '/';
          assert cp[0] == dir[0];
        }
      }
      SplitReplaced(dir);
    }
  }

  /** Splitting `dir.replace('/', '.')` on `.` splits `dir` on `/`, when `dir`
      has no dot of its own. */
  lemma {:induction false} SplitReplaced(dir: string)
    requires '.' !in dir
    ensures Text.Split(Text.Replace(dir, '/', '.'), '.') == Text.Split(dir, '/')
    decreases |dir|
  {
    if dir != [] {
      var r := Text.Replace(dir, '/', '.');
      assert r[1..] == Text.Replace(dir[1..], '/', '.');
      assert dir[0] in dir;
      assert '.' !in dir[1..] by {
        forall c | c in dir[1..] ensures c in dir { }
      }
      SplitReplaced(dir[1..]);
    }
  }

  /** The library built by binding the scanned files in scan order; the first
      `TypeError` ends the scan. */
  function LoadAll(m: map<string, Node>, files: seq<TemplateFile>): Result<map<string, Node>, LibraryError>
    decreases |files|
  {
    if files == [] then Success(m)
    else
      match FilePath(files[0].dir, files[0].name)
      case None => LoadAll(m, files[1..])
      case Some(parts) =>
        match Put(m, parts, files[0].template)
        case Success(m') => LoadAll(m', files[1..])
        case Failure(e) => Failure(e)
  }

  // ---------------------------------------------------------------------
  // The library object
  // ---------------------------------------------------------------------

  /** The parent categories met on the way down, rebuilt innermost first:
      each one gets the updated child written back under its key. */
  ghost function Rebuild(spine: seq<map<string, Node>>, keys: seq<string>, inner: map<string, Node>): map<string, Node>
    requires |spine| == |keys|
    decreases |spine|
  {
    if spine == [] then inner
    else Rebuild(spine[..|spine| - 1], keys[..|keys| - 1], spine[|spine| - 1][keys[|keys| - 1] := Category(inner)])
  }

  ghost function Lift(spine: seq<map<string, Node>>, keys: seq<string>, r: Result<map<string, Node>, LibraryError>): Result<map<string, Node>, LibraryError>
    requires |spine| == |keys|
  {
    match r
    case Success(x) => Success(Rebuild(spine, keys, x))
    case Failure(e) => Failure(e)
  }

  class PromptLibrary {
    /** The top-level dictionary of the namespace. */
    var templates: map<string, Node>

    /** `PromptLibrary()` without a directory: an empty namespace. */
    constructor ()
      ensures templates == map[]
    {
      templates := map[];
    }

    /** `get_template`: a read-only cursor walk down the namespace. */
    method GetTemplate(path: string) returns (r: Result<Template, LibraryError>)
      ensures r == Get(templates, path)
    {
      var parts := Text.Split(path, '.');
      var current := Category(templates);
      var i := 0;
      while i < |parts|
        invariant 0 <= i <= |parts|
        invariant Walk(Category(templates), parts) == Walk(current, parts[i..])
      {
        assert parts[i..][1..] == parts[i + 1..];
        match current
        case Leaf(_) =>
          return Failure(NotACategory);
        case Category(m) =>
          if parts[i] !in m {
            return Failure(KeyNotFound(parts[i]));
          }
          current := m[parts[i]];
        i := i + 1;
      }
      if current.Leaf? {
        r := Success(current.template);
      } else {
        r := Failure(NotATemplate(path));
      }
    }

    /** The cursor walk shared by `add_template` and the directory scan:
        descend through `parts[..|parts| - 1]`, creating missing categories,
        then bind the last segment; the categories are values here, so each
        one met on the way is written back into its parent afterwards. */
    method Bind(parts: seq<string>, t: Template) returns (r: Result<(), LibraryError>)
      requires |parts| >= 1
      modifies this
      ensures match Put(old(templates), parts, t)
              case Success(m) => r == Success(()) && templates == m
              case Failure(e) => r == Failure(e) && templates == old(templates)
    {
      var root := templates;
      var spine: seq<map<string, Node>> := [];
      var current := root;
      var i := 0;
      while i < |parts| - 1
        invariant 0 <= i <= |parts| - 1
        invariant |spine| == i
        invariant Put(root, parts, t) == Lift(spine, parts[..i], Put(current, parts[i..], t))
      {
        var child := if parts[i] in current then current[parts[i]] else Category(map[]);
        assert parts[i..][0] == parts[i] && parts[i..][1..] == parts[i + 1..];
        if child.Leaf? {
          return Failure(NotACategory);
        }
        assert (spine + [current])[..i] == spine;
        assert parts[..i + 1][..i] == parts[..i];
        spine := spine + [current];
        current := child.children;
        i := i + 1;
      }
      var acc := current[parts[i] := Leaf(t)];
      assert spine[..i] == spine;
      while i > 0
        invariant 0 <= i <= |spine|
        invariant Put(root, parts, t) == Success(Rebuild(spine[..i], parts[..i], acc))
      {
        assert spine[..i][..i - 1] == spine[..i - 1];
        assert parts[..i][..i - 1] == parts[..i - 1];
        i := i - 1;
        acc := spine[i][parts[i] := Category(acc)];
      }
      templates := acc;
      r := Success(());
    }

    /** `add_template(path, t)`. */
    method AddTemplate(path: string, t: Template) returns (r: Result<(), LibraryError>)
      modifies this
      ensures match Put(old(templates), Segments(path), t)
              case Success(m) => r == Success(()) && templates == m
              case Failure(e) => r == Failure(e) && templates == old(templates)
    {
      r := Bind(Text.Split(path, '.'), t);
    }

    /** The loop of `_load_from_directory` over the files the scan found, in
        scan order: `.json` files are bound under their derived path. */
    method LoadFromDirectory(files: seq<TemplateFile>) returns (r: Result<(), LibraryError>)
      modifies this
      ensures LoadAll(old(templates), files).Success? <==> r.Success?
      ensures r.Success? ==> templates == LoadAll(old(templates), files).value
      ensures r.Failure? ==> r.error == LoadAll(old(templates), files).error
    {
      var i := 0;
      while i < |files|
        invariant 0 <= i <= |files|
        invariant LoadAll(old(templates), files) == LoadAll(templates, files[i..])
      {
        assert files[i..][0] == files[i] && files[i..][1..] == files[i + 1..];
        var parts := FilePath(files[i].dir, files[i].name);
        if parts.Some? {
          var b := Bind(parts.value, files[i].template);
          if b.Failure? {
            return Failure(b.error);
          }
        }
        i := i + 1;
      }
      r := Success(());
    }
  }
}

=== FILE: templates.dfy ===
/** `PromptTemplate`: a text body with `{name}` placeholders plus a metadata
    record, and the substitution performed by `PromptTemplate.format`. */
module Templates {
  import opened Wrappers
  import Text

  /** A metadata value as it appears in the free-form metadata mapping:
      a string, a nested mapping (the `parameters` documentation) or a
      list (the `version_history` log). */
  datatype MetaValue =
    | Str(s: string)
    | Fields(fields: map<string, MetaValue>)
    | Items(items: seq<MetaValue>)

  type Metadata = map<string, MetaValue>

  /** A template is immutable once built: its body and its metadata. */
  datatype Template = Template(body: string, metadata: Metadata)

  const DefaultVersion := "1.0.0"
  const DefaultAuthor := "AI Team"
  const DefaultDescription := "Generic prompt template"

  /** The record used when no metadata (or an empty mapping) is supplied;
      `now` stands for `datetime.now().isoformat()`. */
  function DefaultMetadata(now: string): Metadata
  {
    map["version" := Str(DefaultVersion), "created_at" := Str(now),
        "author" := Str(DefaultAuthor), "description" := Str(DefaultDescription)]
  }

  /** `PromptTemplate(template, metadata)`: the body is kept verbatim; a
      supplied non-empty mapping is kept verbatim, while `None` and `{}` (both
      falsy in `metadata or {...}`) give the default record. */
  function NewTemplate(body: string, metadata: Option<Metadata>, now: string): (t: Template)
    ensures t.body == body
    ensures metadata.Some? && metadata.value != map[] ==> t.metadata == metadata.value
    ensures metadata.None? || metadata.value == map[] ==>
      && t.metadata.Keys == {"version", "created_at", "author", "description"}
      && t.metadata["version"] == Str("1.0.0")
      && t.metadata["created_at"] == Str(now)
      && t.metadata["author"] == Str("AI Team")
      && t.metadata["description"] == Str("Generic prompt template")
  {
    var m := if metadata.Some? && metadata.value != map[] then metadata.value else DefaultMetadata(now);
    Template(body, m)
  }

  /** How `format` fails. `MissingParameter` is the `ValueError` that
      `format` raises for a placeholder without a value; `IndexOutOfRange` is
      the `IndexError` of a positional field (`{}` or `{0}`), since only keyword
      arguments are passed; `TooManyDigits` is the `ValueError` raised for an
      index too large for a `Py_ssize_t`; `BadFormatString` is the `ValueError`
      that `str.format` raises for a stray or unclosed brace; `SelfArgument`
      is the `TypeError` raised when the keyword arguments hold `self`, which
      the method's own first parameter already binds. */
  datatype FormatError =
    | MissingParameter(name: string)
    | IndexOutOfRange
    | TooManyDigits
    | BadFormatString
    | SelfArgument

  predicate InRun(x: int, zero: int) {
    zero <= x < zero + 10
  }

  /** The code point of the digit zero of the run of ten Unicode decimal
      digits (general category Nd, Unicode 15.0) holding `x`, or -1. */
  function RunZero(x: int): (z: int)
    ensures z >= 0 ==> InRun(x, z)
  {
    if InRun(x, 0x30) then 0x30
    else if InRun(x, 0x660) then 0x660
    else if InRun(x, 0x6F0) then 0x6F0
    else if InRun(x, 0x7C0) then 0x7C0
    else if InRun(x, 0x966) then 0x966
    else if InRun(x, 0x9E6) then 0x9E6
    else if InRun(x, 0xA66) then 0xA66
    else if InRun(x, 0xAE6) then 0xAE6
    else if InRun(x, 0xB66) then 0xB66
    else if InRun(x, 0xBE6) then 0xBE6
    else if InRun(x, 0xC66) then 0xC66
    else if InRun(x, 0xCE6) then 0xCE6
    else if InRun(x, 0xD66) then 0xD66
    else if InRun(x, 0xDE6) then 0xDE6
    else if InRun(x, 0xE50) then 0xE50
    else if InRun(x, 0xED0) then 0xED0
    else if InRun(x, 0xF20) then 0xF20
    else if InRun(x, 0x1040) then 0x1040
    else if InRun(x, 0x1090) then 0x1090
    else if InRun(x, 0x17E0) then 0x17E0
    else if InRun(x, 0x1810) then 0x1810
    else if InRun(x, 0x1946) then 0x1946
    else if InRun(x, 0x19D0) then 0x19D0
    else if InRun(x, 0x1A80) then 0x1A80
    else if InRun(x, 0x1A90) then 0x1A90
    else if InRun(x, 0x1B50) then 0x1B50
    else if InRun(x, 0x1BB0) then 0x1BB0
    else if InRun(x, 0x1C40) then 0x1C40
    else if InRun(x, 0x1C50) then 0x1C50
    else if InRun(x, 0xA620) then 0xA620
    else if InRun(x, 0xA8D0) then 0xA8D0
    else if InRun(x, 0xA900) then 0xA900
    else if InRun(x, 0xA9D0) then 0xA9D0
    else if InRun(x, 0xA9F0) then 0xA9F0
    else if InRun(x, 0xAA50) then 0xAA50
    else if InRun(x, 0xABF0) then 0xABF0
    else if InRun(x, 0xFF10) then 0xFF10
    else if InRun(x, 0x104A0) then 0x104A0
    else if InRun(x, 0x10D30) then 0x10D30
    else if InRun(x, 0x11066) then 0x11066
    else if InRun(x, 0x110F0) then 0x110F0
    else if InRun(x, 0x11136) then 0x11136
    else if InRun(x, 0x111D0) then 0x111D0
    else if InRun(x, 0x112F0) then 0x112F0
    else if InRun(x, 0x11450) then 0x11450
    else if InRun(x, 0x114D0) then 0x114D0
    else if InRun(x, 0x11650) then 0x11650
    else if InRun(x, 0x116C0) then 0x116C0
    else if InRun(x, 0x11730) then 0x11730
    else if InRun(x, 0x118E0) then 0x118E0
    else if InRun(x, 0x11950) then 0x11950
    else if InRun(x, 0x11C50) then 0x11C50
    else if InRun(x, 0x11D50) then 0x11D50
    else if InRun(x, 0x11DA0) then 0x11DA0
    else if InRun(x, 0x11F50) then 0x11F50
    else if InRun(x, 0x16A60) then 0x16A60
    else if InRun(x, 0x16AC0) then 0x16AC0
    else if InRun(x, 0x16B50) then 0x16B50
    else if InRun(x, 0x1D7CE) then 0x1D7CE
    else if InRun(x, 0x1D7D8) then 0x1D7D8
    else if InRun(x, 0x1D7E2) then 0x1D7E2
    else if InRun(x, 0x1D7EC) then 0x1D7EC
    else if InRun(x, 0x1D7F6) then 0x1D7F6
    else if InRun(x, 0x1E140) then 0x1E140
    else if InRun(x, 0x1E2F0) then 0x1E2F0
    else if InRun(x, 0x1E4F0) then 0x1E4F0
    else if InRun(x, 0x1E950) then 0x1E950
    else if InRun(x, 0x1FBF0) then 0x1FBF0
    else -1
  }

  /** The value of `c` as a Unicode decimal digit, as `str.format` reads a
      field index. */
  function DigitValue(c: char): (d: Option<nat>)
    ensures d.Some? ==> d.value < 10
  {
    var z := RunZero(c as int);
    if z < 0 then None else Some(c as int - z)
  }

  /** The largest `Py_ssize_t` of a 64-bit build. */
  const SsizeMax: nat := 0x7FFF_FFFF_FFFF_FFFF

  /** How `str.format` reads a field name: as a keyword, as a positional
      index, or as an index too large for a `Py_ssize_t`. */
  datatype FieldKind = Keyword | Index(n: nat) | IndexTooLarge

  /** CPython's digit-by-digit reading of an index after `acc` has been
      read: overflow is reported as soon as the digits read so far exceed
      `SsizeMax`, even when a non-digit follows them. */
  function ScanIndex(s: string, acc: nat): (k: FieldKind)
    requires acc <= SsizeMax
    ensures k.Index? ==> k.n <= SsizeMax
    decreases |s|
  {
    if s == [] then Index(acc)
    else match DigitValue(s[0])
      case None => Keyword
      case Some(d) =>
        if acc > (SsizeMax - d) / 10 then IndexTooLarge
        else ScanIndex(s[1..], acc * 10 + d)
  }

  /** The empty name is the automatic index 0. */
  function FieldKindOf(name: string): FieldKind {
    if name == [] then Index(0) else ScanIndex(name, 0)
  }

  /** A field name that `str.format` reads as a positional index. */
  predicate IsPositional(name: string) {
    !FieldKindOf(name).Keyword?
  }

  /** The first index at or after `i` holding a brace (or `|s|`). */
  function BraceAt(s: string, i: nat): (k: nat)
    requires i <= |s|
    ensures i <= k <= |s|
    ensures forall j | i <= j < k :: s[j] != '{' && s[j] != '}'
    ensures k == |s| || s[k] == '{' || s[k] == '}'
    decreases |s| - i
  {
    if i == |s| || s[i] == '{' || s[i] == '}' then i else BraceAt(s, i + 1)
  }

  function Prepend(s: string, r: Result<string, FormatError>): Result<string, FormatError>
  {
    match r
    case Success(v) => Success(s + v)
    case Failure(e) => Failure(e)
  }

  /** `body.format(**params)`, the call of `str.format` inside
      `PromptTemplate.format`, read left to right as `str.format` does:
      `{{` and `}}` stand for single braces, `{name}` is replaced by
      `params[name]`, and the first problem met ends the scan. A
      `KeyError` is reported as the `ValueError` the method raises for it. */
  function Format(body: string, params: map<string, string>): (r: Result<string, FormatError>)
    decreases |body|
  {
    if body == [] then Success("")
    else if body[0] == '{' && |body| > 1 && body[1] == '{' then Prepend("{", Format(body[2..], params))
    else if body[0] == '}' && |body| > 1 && body[1] == '}' then Prepend("}", Format(body[2..], params))
    else if body[0] == '}' then Failure(BadFormatString)
    else if body[0] == '{' then
      var k := BraceAt(body, 1);
      if k == |body| || body[k] == '{' then Failure(BadFormatString)
      else
        var name := body[1..k];
        if FieldKindOf(name) == IndexTooLarge then Failure(TooManyDigits)
        else if IsPositional(name) then Failure(IndexOutOfRange)
        else if name !in params then Failure(MissingParameter(name))
        else Prepend(params[name], Format(body[k + 1..], params))
    else Prepend([body[0]], Format(body[1..], params))
  }

  /** `PromptTemplate.format(**params)`: a keyword argument named `self`
      clashes with the method's own first parameter, so Python's call binding
      raises `TypeError` before `str.format` is reached. */
  function FormatTemplate(t: Template, params: map<string, string>): Result<string, FormatError>
  {
    if "self" in params then Failure(SelfArgument) else Format(t.body, params)
  }

  /** `str.format` never raises the binding error. */
  lemma {:induction false} FormatNeverSelfArgument(body: string, params: map<string, string>)
    ensures Format(body, params) != Failure(SelfArgument)
    decreases |body|
  {
    if body != [] {
      if body[0] == '{' && |body| > 1 && body[1] == '{' {
        FormatNeverSelfArgument(body[2..], params);
      } else if body[0] == '}' && |body| > 1 && body[1] == '}' {
        FormatNeverSelfArgument(body[2..], params);
      } else if body[0] == '{' {
        var k := BraceAt(body, 1);
        if k < |body| && body[k] == '}' {
          FormatNeverSelfArgument(body[k + 1..], params);
        }
      } else if body[0] != '}' {
        FormatNeverSelfArgument(body[1..], params);
      }
    }
  }

  /** The `TypeError` is raised exactly when `self` is among the keyword
      arguments, whatever the body. */
  lemma SelfArgumentIff(t: Template, params: map<string, string>)
    ensures FormatTemplate(t, params) == Failure(SelfArgument) <==> "self" in params
  {
    FormatNeverSelfArgument(t.body, params);
  }

  // ---------------------------------------------------------------------
  // A reference reading of a template: literal text and named fields.
  // ---------------------------------------------------------------------

  datatype Piece = Literal(text: string) | Field(name: string)

  /** A name that `str.format` reads as a plain keyword lookup: not an
      index, and free of braces and of the characters that start a format
      specification (`:`), a conversion (`!`), an attribute (`.`) or an
      element index (`[`). */
  predicate KeywordName(name: string) {
    !IsPositional(name) && forall c | c in name :: c !in "{}:!.["
  }

  predicate WellFormed(ps: seq<Piece>) {
    forall i | 0 <= i < |ps| :: ps[i].Field? ==> KeywordName(ps[i].name)
  }

  /** Literal text written for `str.format`: each brace doubled. */
  function Escape(s: string): string
  {
    if s == [] then []
    else (if s[0] == '{' || s[0] == '}' then [s[0], s[0]] else [s[0]]) + Escape(s[1..])
  }

  /** The template body that spells out a sequence of pieces. */
  function Source(ps: seq<Piece>): string
  {
    if ps == [] then []
    else
      match ps[0]
      case Literal(t) => Escape(t) + Source(ps[1..])
      case Field(n) => "{" + n + "}" + Source(ps[1..])
  }

  /** The names of the placeholders, in order of appearance. */
  function Names(ps: seq<Piece>): seq<string>
  {
    if ps == [] then []
    else (if ps[0].Field? then [ps[0].name] else []) + Names(ps[1..])
  }

  /** The first placeholder, in order, that has no value. */
  function FirstMissing(ps: seq<Piece>, params: map<string, string>): (r: Option<string>)
    ensures r.Some? ==> r.value in Names(ps) && r.value !in params
    ensures r.None? <==> forall n | n in Names(ps) :: n in params
  {
    if ps == [] then None
    else if ps[0].Field? && ps[0].name !in params then Some(ps[0].name)
    else FirstMissing(ps[1..], params)
  }

  /** The pieces with every placeholder replaced by its value. */
  function Substitute(ps: seq<Piece>, params: map<string, string>): string
    requires forall n | n in Names(ps) :: n in params
  {
    if ps == [] then []
    else
      match ps[0]
      case Literal(t) => t + Substitute(ps[1..], params)
      case Field(n) => params[n] + Substitute(ps[1..], params)
  }

  /** Formatting the body spelled by `ps` either replaces every placeholder
      by its value or fails naming the first placeholder without one. */
  lemma {:induction false} StrFormatSource(ps: seq<Piece>, params: map<string, string>)
    requires WellFormed(ps)
    ensures Format(Source(ps), params) ==
      match FirstMissing(ps, params)
      case Some(n) => Failure(MissingParameter(n))
      case None => Success(Substitute(ps, params))
    decreases |ps|
  {
    if ps != [] {
      assert WellFormed(ps[1..]) by {
        forall i | 0 <= i < |ps[1..]| && ps[1..][i].Field? ensures KeywordName(ps[1..][i].name) {
          assert ps[1..][i] == ps[i + 1];
        }
      }
      StrFormatSource(ps[1..], params);
      match ps[0]
      case Literal(t) =>
        FormatEscaped(t, Source(ps[1..]), params);
      case Field(n) =>
        assert KeywordName(n) by { assert ps[0].Field?; }
        FormatField(n, Source(ps[1..]), params);
    }
  }

  /** Escaped literal text comes out as the literal text. */
  lemma {:induction false} FormatEscaped(t: string, rest: string, params: map<string, string>)
    ensures Format(Escape(t) + rest, params) == Prepend(t, Format(rest, params))
    decreases |t|
  {
    if t == [] {
      assert Escape(t) + rest == rest;
      PrependEmpty(Format(rest, params));
    } else {
      FormatEscaped(t[1..], rest, params);
      var tail := Escape(t[1..]) + rest;
      EscapeCons(t, rest);
      if t[0] == '{' || t[0] == '}' {
        FormatDoubledBrace(t[0], tail, params);
      } else {
        FormatPlainChar(t[0], tail, params);
      }
      PrependTwice([t[0]], t[1..], Format(rest, params));
      assert [t[0]] + t[1..] == t;
    }
  }

  lemma EscapeCons(t: string, rest: string)
    requires t != []
    ensures Escape(t) + rest ==
      (if t[0] == '{' || t[0] == '}' then [t[0], t[0]] else [t[0]]) + (Escape(t[1..]) + rest)
  {
  }

  lemma PrependEmpty(r: Result<string, FormatError>)
    ensures Prepend("", r) == r
  {
    match r
    case Success(v) => assert "" + v == v;
    case Failure(_) =>
  }

  lemma PrependTwice(a: string, b: string, r: Result<string, FormatError>)
    ensures Prepend(a, Prepend(b, r)) == Prepend(a + b, r)
  {
    match r
    case Success(v) => assert a + (b + v) == (a + b) + v;
    case Failure(_) =>
  }

  lemma FormatDoubledBrace(c: char, rest: string, params: map<string, string>)
    requires c == '{' || c == '}'
    ensures Format([c, c] + rest, params) == Prepend([c], Format(rest, params))
  {
    var s := [c, c] + rest;
    assert s[0] == c && s[1] == c && |s| > 1;
    assert s[2..] == rest;
  }

  lemma FormatPlainChar(c: char, rest: string, params: map<string, string>)
    requires c != '{' && c != '}'
    ensures Format([c] + rest, params) == Prepend([c], Format(rest, params))
  {
    var s := [c] + rest;
    assert s[0] == c;
    assert s[1..] == rest;
  }

  lemma FormatField(n: string, rest: string, params: map<string, string>)
    requires KeywordName(n)
    ensures Format("{" + n + "}" + rest, params) ==
      if n !in params then Failure(MissingParameter(n))
      else Prepend(params[n], Format(rest, params))
  {
    var s := "{" + n + "}" + rest;
    BraceSkipsName(s, n);
    assert s[1..|n| + 1] == n;
    assert s[|n| + 2..] == rest;
    assert s[0] == '{';
    assert n != [] by { assert !IsPositional(n); }
    assert s[1] != '{';
  }

  lemma BraceSkipsName(s: string, n: string)
    requires '{' !in n && '}' !in n
    requires |s| >= |n| + 2 && s[1..|n| + 1] == n && s[|n| + 1] == '}'
    ensures BraceAt(s, 1) == |n| + 1
  {
  }

  /** Literal text written with doubled braces formats to itself, whatever
      parameters are supplied. */
  lemma StrFormatEscaped(t: string, params: map<string, string>)
    ensures Format(Escape(t), params) == Success(t)
  {
    FormatEscaped(t, "", params);
    assert Escape(t) + "" == Escape(t);
    assert t + "" == t;
  }

  /** Parameters that the body never uses are ignored: two mappings that agree
      on the placeholders give the same outcome. */
  lemma {:induction false} StrFormatUnusedIgnored(ps: seq<Piece>, p1: map<string, string>, p2: map<string, string>)
    requires WellFormed(ps)
    requires forall n | n in Names(ps) :: (n in p1 <==> n in p2) && (n in p1 ==> p1[n] == p2[n])
    ensures Format(Source(ps), p1) == Format(Source(ps), p2)
  {
    StrFormatSource(ps, p1);
    StrFormatSource(ps, p2);
    SameOnNames(ps, p1, p2);
  }

  lemma {:induction false} SameOnNames(ps: seq<Piece>, p1: map<string, string>, p2: map<string, string>)
    requires forall n | n in Names(ps) :: (n in p1 <==> n in p2) && (n in p1 ==> p1[n] == p2[n])
    ensures FirstMissing(ps, p1) == FirstMissing(ps, p2)
    ensures FirstMissing(ps, p1).None? ==> Substitute(ps, p1) == Substitute(ps, p2)
    decreases |ps|
  {
    if ps != [] {
      assert Names(ps) == (if ps[0].Field? then [ps[0].name] else []) + Names(ps[1..]);
      SameOnNames(ps[1..], p1, p2);
    }
  }

  /** Whenever `Format` reports a missing parameter, that name is absent from
      the mapping and the body holds it as a `{name}` placeholder. */
  lemma {:induction false} MissingIsReferenced(body: string, params: map<string, string>, n: string)
    requires Format(body, params) == Failure(MissingParameter(n))
    ensures n !in params
    ensures exists i :: Text.OccursAt(body, "{" + n + "}", i)
    decreases |body|
  {
    var skip := MissingStep(body, params, n);
    if skip > 0 {
      MissingIsReferenced(body[skip..], params, n);
      var i :| Text.OccursAt(body[skip..], "{" + n + "}", i);
      Text.OccursShift(body, "{" + n + "}", skip, i);
    }
  }

  /** One step of the scan towards a missing parameter: either the field at the
      head names it (`skip == 0`), or the same failure comes from a shorter tail. */
  lemma MissingStep(body: string, params: map<string, string>, n: string) returns (skip: nat)
    requires Format(body, params) == Failure(MissingParameter(n))
    ensures skip <= |body|
    ensures skip == 0 ==> n !in params && Text.OccursAt(body, "{" + n + "}", 0)
    ensures skip > 0 ==> Format(body[skip..], params) == Failure(MissingParameter(n))
  {
    var head: string;
    if body[0] == '{' && |body| > 1 && body[1] == '{' {
      assert body == ['{', '{'] + body[2..];
      FormatDoubledBrace('{', body[2..], params);
      skip, head := 2, "{";
    } else if body[0] == '}' && |body| > 1 && body[1] == '}' {
      assert body == ['}', '}'] + body[2..];
      FormatDoubledBrace('}', body[2..], params);
      skip, head := 2, "}";
    } else if body[0] == '{' {
      FormatOpenBrace(body, params);
      var k := BraceAt(body, 1);
      if k < |body| && body[k] == '}' && body[1..k] !in params {
        assert body[0..k + 1] == "{" + n + "}";
        return 0;
      }
      skip, head := k + 1, params[body[1..k]];
    } else {
      assert body == [body[0]] + body[1..];
      FormatPlainChar(body[0], body[1..], params);
      skip, head := 1, [body[0]];
    }
    PrependFailure(head, Format(body[skip..], params));
  }

  lemma PrependFailure(s: string, r: Result<string, FormatError>)
    ensures Prepend(s, r).Failure? ==> r == Failure(Prepend(s, r).error)
  {
  }

  /** What the scan does at a single opening brace. */
  lemma FormatOpenBrace(body: string, params: map<string, string>)
    requires body != [] && body[0] == '{' && !(|body| > 1 && body[1] == '{')
    ensures var k := BraceAt(body, 1);
      Format(body, params) ==
        if k == |body| || body[k] == '{' then Failure(BadFormatString)
        else if FieldKindOf(body[1..k]) == IndexTooLarge then Failure(TooManyDigits)
        else if IsPositional(body[1..k]) then Failure(IndexOutOfRange)
        else if body[1..k] !in params then Failure(MissingParameter(body[1..k]))
        else Prepend(params[body[1..k]], Format(body[k + 1..], params))
  {
  }

  /** A body without braces is returned unchanged. */
  lemma {:induction false} StrFormatNoBraces(body: string, params: map<string, string>)
    requires '{' !in body && '}' !in body
    ensures Format(body, params) == Success(body)
    decreases |body|
  {
    if body != [] {
      assert body[0] in body;
      assert '{' !in body[1..] && '}' !in body[1..] by {
        forall c | c in body[1..] ensures c in body { }
      }
      StrFormatNoBraces(body[1..], params);
      assert [body[0]] + body[1..] == body;
    }
  }

  // ---------------------------------------------------------------------
  // Positional fields: how a field name made of digits is read.
  // ---------------------------------------------------------------------

  /** Reading one more character after `s` continues from what `s` gave. */
  lemma {:induction false} ScanAppend(s: string, c: char, acc: nat)
    requires acc <= SsizeMax
    ensures var k := ScanIndex(s, acc);
      ScanIndex(s + [c], acc) == if k.Index? then ScanIndex([c], k.n) else k
    decreases |s|
  {
    if s == [] {
      assert s + [c] == [c];
    } else {
      assert (s + [c])[0] == s[0];
      assert (s + [c])[1..] == s[1..] + [c];
      match DigitValue(s[0])
      case None =>
      case Some(d) =>
        if acc <= (SsizeMax - d) / 10 {
          ScanAppend(s[1..], c, acc * 10 + d);
        }
    }
  }

  /** Once the digits read overflow, whatever follows them is not looked at. */
  lemma {:induction false} ScanOverflowPrefix(s: string, t: string, acc: nat)
    requires acc <= SsizeMax && ScanIndex(s, acc) == IndexTooLarge
    ensures ScanIndex(s + t, acc) == IndexTooLarge
    decreases |s|
  {
    assert s != [];
    assert (s + t)[0] == s[0];
    assert (s + t)[1..] == s[1..] + t;
    var d := DigitValue(s[0]).value;
    if acc <= (SsizeMax - d) / 10 {
      ScanOverflowPrefix(s[1..], t, acc * 10 + d);
    }
  }

  /** The overflow test of the digit loop is exactly `acc * 10 + d > SsizeMax`. */
  lemma OverflowTest(acc: nat, d: nat)
    requires d < 10
    ensures acc > (SsizeMax - d) / 10 <==> acc * 10 + d > SsizeMax
  {
    var q, r := (SsizeMax - d) / 10, (SsizeMax - d) % 10;
    assert SsizeMax - d == q * 10 + r && 0 <= r < 10;
    if acc > q {
      assert acc * 10 >= q * 10 + 10;
    } else {
      assert acc * 10 <= q * 10;
    }
  }

  /** An ASCII digit is a decimal digit of its own value. */
  lemma AsciiDigitValue(d: nat)
    requires d < 10
    ensures DigitValue(Text.Digit(d)) == Some(d)
  {
    assert Text.Digit(d) as int == 0x30 + d;
  }

  /** The decimal rendering of `n` is read as the index `n`, or as an
      overflow when `n` exceeds `SsizeMax`. */
  lemma {:induction false} ScanDecimal(n: nat)
    ensures ScanIndex(Text.DecimalString(n), 0) ==
      if n <= SsizeMax then Index(n) else IndexTooLarge
    decreases n
  {
    var c := Text.Digit(n % 10);
    AsciiDigitValue(n % 10);
    if n < 10 {
      assert ScanIndex([c], 0) == ScanIndex([], n);
    } else {
      ScanDecimal(n / 10);
      ScanAppend(Text.DecimalString(n / 10), c, 0);
      OverflowTest(n / 10, n % 10);
    }
  }

  /** The field `{n}` for a number `n` raises `IndexError` (no positional
      arguments are passed), or `ValueError` when `n` is too large for a
      `Py_ssize_t`; a field that begins with such a number fails with the
      `ValueError` whatever follows the digits. */
  lemma StrFormatDecimalField(n: nat, rest: string, params: map<string, string>)
    requires '{' !in rest && '}' !in rest
    requires rest != [] ==> n > SsizeMax
    ensures Format("{" + Text.DecimalString(n) + rest + "}", params) ==
      if n <= SsizeMax then Failure(IndexOutOfRange) else Failure(TooManyDigits)
  {
    var digits := Text.DecimalString(n);
    var name := digits + rest;
    assert '{' !in name && '}' !in name by {
      forall j | 0 <= j < |name| ensures name[j] != '{' && name[j] != '}' {
        if j < |digits| {
          assert Text.IsDigit(digits[j]);
        } else {
          assert name[j] == rest[j - |digits|];
        }
      }
    }
    ScanDecimal(n);
    if n > SsizeMax {
      ScanOverflowPrefix(digits, rest, 0);
    } else {
      assert name == digits;
    }
    StrFormatOneField(name, params);
    assert "{" + name + "}" == "{" + Text.DecimalString(n) + rest + "}";
  }

  /** A body holding one field and no other braces. */
  lemma StrFormatOneField(name: string, params: map<string, string>)
    requires name != [] && '{' !in name && '}' !in name
    ensures Format("{" + name + "}", params) ==
      if FieldKindOf(name) == IndexTooLarge then Failure(TooManyDigits)
      else if IsPositional(name) then Failure(IndexOutOfRange)
      else if name !in params then Failure(MissingParameter(name))
      else Success(params[name])
  {
    var body := "{" + name + "}";
    assert body[1..|name| + 1] == name;
    BraceSkipsName(body, name);
    assert body[|body|..] == [];
    FormatOpenBrace(body, params);
    if name in params {
      assert params[name] + "" == params[name];
    }
  }

  /** A field named by a non-ASCII decimal digit, here ARABIC-INDIC DIGIT
      THREE, is a positional index too, even when a parameter of that name
      is supplied. */
  lemma StrFormatArabicIndicDigit()
    ensures Format("{\U{0663}}", map["\U{0663}" := "x"]) == Failure(IndexOutOfRange)
  {
    var body := "{\U{0663}}";
    assert BraceAt(body, 1) == 2;
    assert body[1..2] == "\U{0663}";
    assert DigitValue('\U{0663}') == Some(3);
  }

  // ---------------------------------------------------------------------
  // The laws of `PromptTemplate.format` as a method.
  // ---------------------------------------------------------------------

  /** Formatting a template whose body is spelled by `ps` raises the
      `TypeError` when `self` is supplied, and otherwise either replaces every
      placeholder by its value or fails naming the first placeholder without
      one. */
  lemma FormatSource(ps: seq<Piece>, m: Metadata, params: map<string, string>)
    requires WellFormed(ps)
    ensures FormatTemplate(Template(Source(ps), m), params) ==
      if "self" in params then Failure(SelfArgument)
      else match FirstMissing(ps, params)
        case Some(n) => Failure(MissingParameter(n))
        case None => Success(Substitute(ps, params))
  {
    StrFormatSource(ps, params);
  }

  /** Keyword arguments that the body never uses are ignored, except `self`:
      two mappings that agree on the placeholders and on whether `self` is
      supplied give the same outcome. */
  lemma UnusedParametersIgnored(ps: seq<Piece>, m: Metadata, p1: map<string, string>, p2: map<string, string>)
    requires WellFormed(ps)
    requires forall n | n in Names(ps) :: (n in p1 <==> n in p2) && (n in p1 ==> p1[n] == p2[n])
    requires "self" in p1 <==> "self" in p2
    ensures FormatTemplate(Template(Source(ps), m), p1) == FormatTemplate(Template(Source(ps), m), p2)
  {
    StrFormatUnusedIgnored(ps, p1, p2);
  }

  /** Literal text written with doubled braces formats back to itself, unless
      `self` is supplied. */
  lemma EscapeRoundTrip(t: string, m: Metadata, params: map<string, string>)
    ensures FormatTemplate(Template(Escape(t), m), params) ==
      if "self" in params then Failure(SelfArgument) else Success(t)
  {
    StrFormatEscaped(t, params);
  }

  /** A body without braces is returned unchanged, unless `self` is supplied. */
  lemma NoBracesVerbatim(body: string, m: Metadata, params: map<string, string>)
    requires '{' !in body && '}' !in body
    ensures FormatTemplate(Template(body, m), params) ==
      if "self" in params then Failure(SelfArgument) else Success(body)
  {
    StrFormatNoBraces(body, params);
  }

  /** A body holding one field and no other braces: the binding error, the
      index errors, the missing parameter, or the parameter's value. */
  lemma FormatOneField(name: string, m: Metadata, params: map<string, string>)
    requires name != [] && '{' !in name && '}' !in name
    ensures FormatTemplate(Template("{" + name + "}", m), params) ==
      if "self" in params then Failure(SelfArgument)
      else if FieldKindOf(name) == IndexTooLarge then Failure(TooManyDigits)
      else if IsPositional(name) then Failure(IndexOutOfRange)
      else if name !in params then Failure(MissingParameter(name))
      else Success(params[name])
  {
    StrFormatOneField(name, params);
  }

  /** The field `{n}` for a number `n` raises `IndexError`, or `ValueError`
      when `n` is too large for a `Py_ssize_t`, unless `self` is supplied; a
      field that begins with an overflowing number raises that `ValueError`
      whatever follows the digits. */
  lemma FormatDecimalField(n: nat, rest: string, m: Metadata, params: map<string, string>)
    requires '{' !in rest && '}' !in rest
    requires rest != [] ==> n > SsizeMax
    ensures FormatTemplate(Template("{" + Text.DecimalString(n) + rest + "}", m), params) ==
      if "self" in params then Failure(SelfArgument)
      else if n <= SsizeMax then Failure(IndexOutOfRange)
      else Failure(TooManyDigits)
  {
    StrFormatDecimalField(n, rest, params);
  }

  /** A field named by a non-ASCII decimal digit, here ARABIC-INDIC DIGIT
      THREE, is a positional index too, even when a keyword argument of that
      name is supplied. */
  lemma ArabicIndicDigitField(m: Metadata)
    ensures FormatTemplate(Template("{\U{0663}}", m), map["\U{0663}" := "x"]) == Failure(IndexOutOfRange)
  {
    StrFormatArabicIndicDigit();
  }
}

=== FILE: text.dfy ===
/** The string primitives the two components rely on: Python's `str.split()`
    and `str.split(sep)`, ASCII lower-casing, substring search, and the decimal
    rendering of an `int` used to build dictionary keys. */
module Text {

  /** Python's `str.isspace()` for one character: the characters on which
      `str.split()` with no argument breaks (ASCII and the Unicode spaces). */
  predicate IsSpace(c: char) {
    var n := c as int;
    n == 0x20 || 0x09 <= n <= 0x0d || 0x1c <= n <= 0x1f || n == 0x85 || n == 0xa0
    || n == 0x1680 || 0x2000 <= n <= 0x200a || n == 0x2028 || n == 0x2029
    || n == 0x202f || n == 0x205f || n == 0x3000
  }

  predicate NoSpace(w: string) {
    forall j | 0 <= j < |w| :: !IsSpace(w[j])
  }

  /** The first index at or after `i` that holds a space (or `|s|`). */
  function RunEnd(s: string, i: nat): (k: nat)
    requires i <= |s|
    ensures i <= k <= |s|
    ensures forall j | i <= j < k :: !IsSpace(s[j])
    ensures k == |s| || IsSpace(s[k])
    decreases |s| - i
  {
    if i == |s| || IsSpace(s[i]) then i else RunEnd(s, i + 1)
  }

  /** The characters of `s` that are not spaces, in order. */
  function NonSpace(s: string): string
  {
    if s == [] then []
    else (if IsSpace(s[0]) then [] else [s[0]]) + NonSpace(s[1..])
  }

  function Concat(ws: seq<string>): string
  {
    if ws == [] then [] else ws[0] + Concat(ws[1..])
  }

  /** Python's `str.split()` with no separator: the maximal runs of
      non-space characters of `s`, in order. Every word is non-empty and
      space-free, and together they hold exactly the non-space characters. */
  function Words(s: string): (r: seq<string>)
    ensures forall w | w in r :: w != [] && NoSpace(w)
    ensures Concat(r) == NonSpace(s)
    decreases |s|
  {
    if s == [] then []
    else if IsSpace(s[0]) then Words(s[1..])
    else
      var k := RunEnd(s, 0);
      var rest := Words(s[k..]);
      WordPrefixNonSpace(s, k);
      assert ([s[..k]] + rest)[1..] == rest;
      [s[..k]] + rest
  }

  lemma {:induction false} WordPrefixNonSpace(s: string, k: nat)
    requires k <= |s|
    requires forall j | 0 <= j < k :: !IsSpace(s[j])
    ensures NonSpace(s) == s[..k] + NonSpace(s[k..])
    decreases k
  {
    if k > 0 {
      WordPrefixNonSpace(s[1..], k - 1);
      assert s[1..][k - 1..] == s[k..];
      assert s[..k] == [s[0]] + s[1..][..k - 1];
    }
  }

  /** Text made only of spaces (including the empty text) has no words. */
  lemma {:induction false} BlankHasNoWords(s: string)
    requires forall j | 0 <= j < |s| :: IsSpace(s[j])
    ensures Words(s) == []
    decreases |s|
  {
    if s != [] {
      BlankHasNoWords(s[1..]);
    }
  }

  /** A space splits a text into two parts whose words are counted apart. */
  lemma {:induction false} WordsAcrossSpace(a: string, c: char, b: string)
    requires IsSpace(c)
    ensures Words(a + [c] + b) == Words(a) + Words(b)
    decreases |a|
  {
    var s := a + [c] + b;
    if a == [] {
      assert s[1..] == b;
    } else if IsSpace(a[0]) {
      assert s[1..] == a[1..] + [c] + b;
      WordsAcrossSpace(a[1..], c, b);
    } else {
      var k := RunEnd(s, 0);
      var ka := RunEnd(a, 0);
      assert s == a + ([c] + b);
      RunEndWithin(a, [c] + b, 0);
      assert k == ka;
      assert s[..k] == a[..ka];
      assert s[k..] == a[ka..] + [c] + b;
      WordsAcrossSpace(a[ka..], c, b);
    }
  }

  lemma {:induction false} RunEndWithin(a: string, rest: string, i: nat)
    requires i <= |a|
    requires rest != [] && IsSpace(rest[0])
    ensures RunEnd(a + rest, i) == RunEnd(a, i)
    decreases |a| - i
  {
    var s := a + rest;
    if i < |a| && !IsSpace(a[i]) {
      RunEndWithin(a, rest, i + 1);
    } else {
      assert i < |a| ==> s[i] == a[i];
      assert i == |a| ==> s[i] == rest[0];
    }
  }

  /** Joining words with single spaces and splitting again gives them back. */
  function JoinSpaced(ws: seq<string>): string
  {
    if ws == [] then [] else if |ws| == 1 then ws[0] else ws[0] + " " + JoinSpaced(ws[1..])
  }

  lemma {:induction false} WordsOfJoined(ws: seq<string>)
    requires forall w | w in ws :: w != [] && NoSpace(w)
    ensures Words(JoinSpaced(ws)) == ws
    decreases |ws|
  {
    if ws == [] {
    } else if |ws| == 1 {
      assert ws[0] in ws;
      WordsOfWord(ws[0]);
    } else {
      assert ws[0] in ws;
      assert forall w | w in ws[1..] :: w in ws;
      WordsOfJoined(ws[1..]);
      WordsOfWord(ws[0]);
      assert JoinSpaced(ws) == ws[0] + [' '] + JoinSpaced(ws[1..]);
      WordsAcrossSpace(ws[0], ' ', JoinSpaced(ws[1..]));
    }
  }

  lemma WordsOfWord(w: string)
    requires w != [] && NoSpace(w)
    ensures Words(w) == [w]
  {
    RunEndAll(w, 0);
    assert !IsSpace(w[0]);
    assert w[..|w|] == w;
    assert w[|w|..] == [];
  }

  lemma {:induction false} RunEndAll(w: string, i: nat)
    requires i <= |w| && NoSpace(w)
    ensures RunEnd(w, i) == |w|
    decreases |w| - i
  {
    if i < |w| {
      RunEndAll(w, i + 1);
    }
  }

  /** Python's `str.split(sep)` for a one-character separator: the pieces
      between separators; there is always at least one, and none holds `sep`. */
  function Split(s: string, sep: char): (r: seq<string>)
    ensures |r| >= 1
    ensures forall p | p in r :: sep !in p
  {
    if s == [] then [""]
    else
      var rest := Split(s[1..], sep);
      if s[0] == sep then [""] + rest else [[s[0]] + rest[0]] + rest[1..]
  }

  /** `sep.join(ps)`. */
  function Join(ps: seq<string>, sep: char): string
    requires |ps| >= 1
  {
    if |ps| == 1 then ps[0] else ps[0] + [sep] + Join(ps[1..], sep)
  }

  lemma {:induction false} JoinSplit(s: string, sep: char)
    ensures Join(Split(s, sep), sep) == s
    decreases |s|
  {
    if s != [] {
      JoinSplit(s[1..], sep);
      var rest := Split(s[1..], sep);
      if s[0] != sep {
        if |rest| == 1 {
        } else {
          assert ([[s[0]] + rest[0]] + rest[1..])[1..] == rest[1..];
        }
      }
    }
  }

  lemma {:induction false} SplitJoin(ps: seq<string>, sep: char)
    requires |ps| >= 1
    requires forall p | p in ps :: sep !in p
    ensures Split(Join(ps, sep), sep) == ps
    decreases |ps|
  {
    if |ps| == 1 {
      SplitNoSep(ps[0], sep);
    } else {
      assert ps[0] in ps;
      assert forall p | p in ps[1..] :: p in ps;
      SplitJoin(ps[1..], sep);
      SplitAcrossSep(ps[0], sep, Join(ps[1..], sep));
      assert [ps[0]] + ps[1..] == ps;
    }
  }

  lemma {:induction false} SplitNoSep(s: string, sep: char)
    requires sep !in s
    ensures Split(s, sep) == [s]
    decreases |s|
  {
    if s != [] {
      assert sep !in s[1..] by {
        forall c | c in s[1..] ensures c != sep { assert c in s; }
      }
      SplitNoSep(s[1..], sep);
      assert [s[0]] + s[1..] == s;
    }
  }

  lemma {:induction false} SplitAcrossSep(a: string, sep: char, b: string)
    requires sep !in a
    ensures Split(a + [sep] + b, sep) == [a] + Split(b, sep)
    decreases |a|
  {
    var s := a + [sep] + b;
    if a == [] {
      assert s[1..] == b;
    } else {
      assert s[1..] == a[1..] + [sep] + b;
      assert a[0] in a;
      assert sep !in a[1..] by {
        forall c | c in a[1..] ensures c != sep { assert c in a; }
      }
      SplitAcrossSep(a[1..], sep, b);
      assert [a[0]] + a[1..] == a;
    }
  }

  /** `s.replace(from, to)` for single characters. */
  function Replace(s: string, from: char, to: char): (r: string)
    ensures |r| == |s|
    ensures forall i | 0 <= i < |s| :: r[i] == if s[i] == from then to else s[i]
  {
    seq(|s|, i requires 0 <= i < |s| => if s[i] == from then to else s[i])
  }

  predicate EndsWith(s: string, suffix: string) {
    |suffix| <= |s| && s[|s| - |suffix|..] == suffix
  }

  /** `str.lower()` on ASCII letters; every other character is kept. */
  function LowerChar(c: char): char {
    if 'A' <= c <= 'Z' then (c as int - 'A' as int + 'a' as int) as char else c
  }

  function Lower(s: string): (r: string)
    ensures |r| == |s|
    ensures forall i | 0 <= i < |s| :: r[i] == LowerChar(s[i])
  {
    seq(|s|, i requires 0 <= i < |s| => LowerChar(s[i]))
  }

  /** Python's `needle in hay` for strings (the empty needle is always in). */
  predicate Contains(hay: string, needle: string)
    decreases |hay|
  {
    needle <= hay || (hay != [] && Contains(hay[1..], needle))
  }

  /** `needle` occurs in `hay` starting at index `i`. */
  predicate OccursAt(hay: string, needle: string, i: int) {
    0 <= i <= |hay| - |needle| && hay[i..i + |needle|] == needle
  }

  /** An occurrence in a suffix is an occurrence in the whole string. */
  lemma OccursShift(hay: string, needle: string, skip: nat, i: int)
    requires skip <= |hay| && OccursAt(hay[skip..], needle, i)
    ensures OccursAt(hay, needle, skip + i)
  {
    assert hay[skip..][i..i + |needle|] == hay[skip + i..skip + i + |needle|];
  }

  /** `Contains` agrees with the definition of a substring by position. */
  lemma {:induction false} ContainsIff(hay: string, needle: string)
    ensures Contains(hay, needle) <==> exists i :: OccursAt(hay, needle, i)
    decreases |hay|
  {
    if needle <= hay {
      assert OccursAt(hay, needle, 0);
    } else if hay == [] {
    } else {
      ContainsIff(hay[1..], needle);
      if exists i :: OccursAt(hay, needle, i) {
        var i :| OccursAt(hay, needle, i);
        OccursUnshift(hay, needle, i);
      }
      if Contains(hay[1..], needle) {
        var i :| OccursAt(hay[1..], needle, i);
        OccursShift(hay, needle, 1, i);
      }
    }
  }

  /** An occurrence past the first character lies in the tail; one at index 0
      is a prefix. */
  lemma OccursUnshift(hay: string, needle: string, i: int)
    requires hay != [] && OccursAt(hay, needle, i)
    ensures i == 0 ==> needle <= hay
    ensures i > 0 ==> OccursAt(hay[1..], needle, i - 1)
  {
    if i > 0 {
      assert hay[1..][i - 1..i - 1 + |needle|] == hay[i..i + |needle|];
    }
  }

  /** A non-empty needle found in `hay` has its first character in `hay`. */
  lemma {:induction false} ContainsFirst(hay: string, needle: string)
    requires needle != [] && Contains(hay, needle)
    ensures needle[0] in hay
    decreases |hay|
  {
    if needle <= hay {
      assert hay[0] == needle[0];
    } else {
      ContainsFirst(hay[1..], needle);
      assert needle[0] in hay[1..];
    }
  }

  function Digit(d: nat): (c: char)
    requires d < 10
  {
    ('0' as int + d) as char
  }

  predicate IsDigit(c: char) {
    '0' <= c <= '9'
  }

  /** `str(n)` for a natural number: decimal, no leading zeros. */
  function DecimalString(n: nat): (s: string)
    ensures |s| >= 1
    ensures forall i | 0 <= i < |s| :: IsDigit(s[i])
    decreases n
  {
    if n < 10 then [Digit(n)] else DecimalString(n / 10) + [Digit(n % 10)]
  }

  /** `int(s)` for a string of decimal digits. */
  function DecimalValue(s: string): nat
    requires forall i | 0 <= i < |s| :: IsDigit(s[i])
  {
    if s == [] then 0
    else
      assert IsDigit(s[|s| - 1]);
      DecimalValue(s[..|s| - 1]) * 10 + (s[|s| - 1] as int - '0' as int)
  }

  lemma {:induction false} DecimalRoundTrip(n: nat)
    ensures DecimalValue(DecimalString(n)) == n
    decreases n
  {
    if n >= 10 {
      DecimalRoundTrip(n / 10);
      var s := DecimalString(n);
      assert s[..|s| - 1] == DecimalString(n / 10);
    }
  }

  /** Distinct numbers have distinct decimal renderings. */
  lemma DecimalStringInjective(a: nat, b: nat)
    requires DecimalString(a) == DecimalString(b)
    ensures a == b
  {
    DecimalRoundTrip(a);
    DecimalRoundTrip(b);
  }
}

=== FILE: wrappers.dfy ===
/** Optional values and results shared by the modules of the model. */
module Wrappers {

  datatype Option<+T> = None | Some(value: T)

  /** The outcome of an operation that either yields a value or raises one of
      the errors the source raises. */
  datatype Result<+T, +E> = Success(value: T) | Failure(error: E)
}
